=== FILE: README.md ===
# Tracker form-field mapping

The upload assistant has one adapter per private tracker: M-Team, Audiences,
HHAN, HDSKY, U2 and CHD. Each adapter turns the release record into the fields
of that site's upload form. The record holds the category, the type, the disc
kind, the resolution, genres and keywords, the MediaInfo tracks, the BDInfo
subtitles and the PtGen regions. The fields are numeric or string ids, labels,
tags, a rewritten release name, a Douban link and an anonymity flag. The
adapters also read a few facts back from the pages the sites answer with:
- whether a details page is a login page;
- the torrent hash, the Douban subject and the AniDB id on a details page;
- the id in the redirect after an accepted upload or offer.

The model covers that pure mapping layer. It uses two patterns:
- **first-match ladders**: ordered substring tests where the first hit wins;
- **last-assignment-wins chains**: a run of `if` statements that each
  overwrite the id.

Strings are `seq<char>`. The Python `x in s` test is `Text.Contains`;
`lower()` and `upper()` are ASCII case mappings.

Modules:
- `Text`: option type, substring tests, ASCII case, `strip`/`lstrip`, digits and `int()` of a digit string.
- `Replace`: `str.replace`, `split` and `join`, with the lemmas that let proofs see through a replacement.
- `Ladder`: a first-match ladder as data (rungs of markers with an id), its first-hit function and the lemmas relating two ladders with the same markers.
- `Urls`: `urlparse(...).query`, the search `marker(\d+)` and the outcome of an upload redirect.
- `Release`: the release record, the genre texts, the track scans and loosely typed JSON values.
- `Shared`: code several adapters carry word for word. Each piece is defined once here: `edit_name`, `is_zhongzi`, `get_area_id`, `get_type_medium_id`, the Douban link normalisation and the 40-character hash check.
- `MTeam`, `Audiences`, `Hhan`, `HdSky`, `U2`, `Chd`: one module per adapter. CHD's `get_type_category_id` is the same code as U2's, so it is `U2.CategoryId`.
- `Agreement`: lemmas tying the adapters together. M-Team and Audiences run the same codec, audio and resolution cascades under different ids. The subtitle and anonymity settings reach several fields.

Per-tracker copies of the shared code differ only in local variable names.
The area and medium functions of AUDIENCES, HHAN, HDSKY, U2 and CHD are
therefore one definition each, so the extensional equality between copies
holds by construction. The same goes for `edit_name` in MTEAM, AUDIENCES, HHAN
and HDSKY, `is_zhongzi` in AUDIENCES, HHAN and HDSKY, and the hash check in
HHAN, U2 and CHD.

## Model

| member | source | states |
|---|---|---|
| MTeam.CategoryId | src/trackers/MTEAM.py:111-188 | The result is always one of the thirteen category ids, never None. A movie gets 421 exactly for BDMV and 420 exactly for DVD. Otherwise it gets 439 exactly for REMUX, then 419 exactly for an HD resolution, otherwise 401. A series gets 438 exactly for BDMV and 435 exactly for DVD. Otherwise it gets 402 exactly for an HD resolution, otherwise 403. Any other category gets 404 exactly when documentary-tagged. Failing that it gets 405 exactly when animation or anime, then 407 exactly with a `sport`/`sports` genre (which needs `sport`), otherwise 409. |
| MTeam.SportsTestRedundant | src/trackers/MTEAM.py:184 | The `sports` disjunct is subsumed: the test holds exactly when the genres hold `sport`. |
| MTeam.TvIgnoresGenres | src/trackers/MTEAM.py:137-168 | A series' id does not change when genres, keywords or the anime flag change: the variety and non-variety branches agree. |
| MTeam.StandardId | src/trackers/MTEAM.py:190-207 | The id is the first hit of the resolution ladder (8K, 4K, 1080p, 1080i, 720p, SD) on the lower-cased resolution, and None when no marker matches. |
| MTeam.StandardOf | src/trackers/MTEAM.py:192-207 | The written cascade equals the first hit of the resolution ladder on any text. |
| MTeam.StandardRungs | src/trackers/MTEAM.py:194-205 | Each ladder rung matches exactly when the cascade's corresponding test does. |
| MTeam.StandardExplained | src/trackers/MTEAM.py:190-207 | If the id is rung i's, rung i matched and every earlier rung failed. |
| MTeam.VideoCodecId | src/trackers/MTEAM.py:209-231 | No Video track gives None; otherwise the id is the first hit of the codec ladder on the upper-cased format of the first Video track, with HEVC tested before AVC. |
| MTeam.VideoCodecOf | src/trackers/MTEAM.py:218-231 | The written cascade equals the first hit of the video ladder. |
| MTeam.VideoRungs | src/trackers/MTEAM.py:220-229 | Each video rung matches exactly when the cascade's test does. |
| MTeam.AudioCodecId | src/trackers/MTEAM.py:233-267 | Only the first Audio track counts; none gives None. Otherwise the id is the first hit of the ladder DTS:X (profile) > Atmos (profile, or `TRUEHD ATMOS` in the format) > DTS-HD > TrueHD > PCM > DTS > AC3 > OPUS > AAC > FLAC. |
| MTeam.AudioCodecOf | src/trackers/MTEAM.py:242-267 | The written cascade equals the first hit of the audio ladder over format and profile. |
| MTeam.AudioRungs | src/trackers/MTEAM.py:246-265 | Each audio rung matches exactly when the cascade's test does. |
| MTeam.DtsHdNeverPlainDts | src/trackers/MTEAM.py:246-257 | A `DTS-HD` format is never filed as plain DTS; the result is DTS:X, TrueHD Atmos or DTS-HD MA. |
| MTeam.LadderIdsDistinct | src/trackers/MTEAM.py:190-267 | The ids of each of the three ladders are pairwise distinct, so an answer names its rung. |
| MTeam.AudioCodecExplained | src/trackers/MTEAM.py:233-267 | If the id is rung i's, the first Audio track exists, matches rung i and misses every earlier rung. |
| MTeam.Countries | src/trackers/MTEAM.py:269-298 | The codes are pairwise distinct. A code is present exactly when some region maps to it, so unmapped regions are dropped. Codes come in the order their first region appears. |
| MTeam.Labels | src/trackers/MTEAM.py:300-335 | At most two labels, each `中字` or `中配`. `中字` appears exactly when there is Chinese subtitle evidence: `zh` Text tracks for non-BDMV, bdinfo `Chinese` for BDMV. `中配` appears exactly when an Audio track is `zh`/`chi`. With both, `中字` comes first. |
| MTeam.SmallDescr | src/trackers/MTEAM.py:450-462 | With translated titles `['']` the field is the release title. |
| MTeam.SmallDescrJoinsTitles | src/trackers/MTEAM.py:453-459 | Take translated titles (none, or any list but `['']`) free of `/` and `|`. The field is the titles joined by ` / ` plus a space (nothing when there are none), then `| 类别:` and the first genre (`""` without genres) with its own `/ |` turned into `|`. A genre without `/` is kept unchanged. Only the final `/ |` merges, and every separator between titles survives. |
| MTeam.TitleRunReplaced | src/trackers/MTEAM.py:455-459 | The `/ |` replacement over the appended title run keeps each ` / ` between titles and merges the last one into the genre label. |
| MTeam.DoubanField | src/trackers/MTEAM.py:510-520 | A field is added exactly for a string starting with `http`, which is used verbatim, or for an all-digit string. An all-digit string becomes `https://movie.douban.com/subject/{v}/`. |
| MTeam.DoubanFieldKeepsId | src/trackers/MTEAM.py:517-518 | The subject page built for a bare id yields that id again under the `/subject/(\d+)` search. |
| MTeam.Anonymous | src/trackers/MTEAM.py:522-524 | `anonymous` is set exactly when `anon` is 1 or the tracker is configured anonymous. |
| Audiences.CategoryId | src/trackers/AUDIENCES.py:100-123 | Last assignment wins, default `"0"`: documentary gives 406 over everything, then variety/reality/talk show 403, then TV 402 and MOVIE 401. Each is stated as an if-and-only-if. |
| Audiences.MediumSel | src/trackers/AUDIENCES.py:169-204 | Type ids override the disc ids: REMUX 3, HDTV 5, WEBDL 10, ENCODE/WEBRIP 15. Otherwise BDMV maps (2160p, has_encode_settings) to 13/12/14/1, DVD gives 2, and anything else `"0"`. |
| Audiences.MediumSelMatchesMediumId | src/trackers/AUDIENCES.py:142-204 | The form selection and `get_type_medium_id` classify alike, id for id, except that an HD DVD has a medium id but selection `"0"`. |
| Audiences.CodecSel | src/trackers/AUDIENCES.py:206-233 | `"0"` exactly when there is no Video track. Otherwise it is the first hit of the codec ladder on the upper-cased format, and `"5"` when nothing matches. |
| Audiences.CodecSelOf | src/trackers/AUDIENCES.py:218-231 | The written cascade equals the first hit of the codec ladder with fallback `"5"`. |
| Audiences.CodecRungs | src/trackers/AUDIENCES.py:220-229 | Each codec rung matches exactly when the cascade's test does. |
| Audiences.HevcBeforeAvc | src/trackers/AUDIENCES.py:220-223 | A format holding `HEVC` gives `"6"` even when it also holds `AVC`. |
| Audiences.AudioCodecSel | src/trackers/AUDIENCES.py:235-283 | `"0"` exactly when there is no Audio track. Otherwise it is the first hit of the fourteen-rung audio ladder on the first Audio track, and `"7"` when nothing matches. |
| Audiences.AudioSelOf | src/trackers/AUDIENCES.py:248-281 | The written cascade equals the first hit of the audio ladder with fallback `"7"`, and never yields `"0"`. |
| Audiences.AudioRungs | src/trackers/AUDIENCES.py:252-265 | Rungs 0-6 match exactly when the cascade's DTS:X, Atmos, DTS-HD, TrueHD, PCM, DTS and AC3 tests do. |
| Audiences.AudioRungsLater | src/trackers/AUDIENCES.py:266-279 | Rungs 7-13 match exactly when the cascade's OPUS, AAC, FLAC, APE, WAV, MP3 and M4A tests do. |
| Audiences.StandardSel | src/trackers/AUDIENCES.py:285-303 | Total. The result is one of 10, 5, 1, 2, 3, 4, 11: the first hit of the resolution ladder on the lower-cased resolution, or `'11'` when no marker matches. |
| Audiences.StandardSelOf | src/trackers/AUDIENCES.py:288-303 | The written cascade equals the first hit of the resolution ladder with fallback `'11'`. |
| Audiences.StandardRungs | src/trackers/AUDIENCES.py:290-301 | Each resolution rung matches exactly when the cascade's test does. |
| Audiences.Tags | src/trackers/AUDIENCES.py:459-474 | The tags are drawn from `zz`, `dh`, `wj` in that order. `zz` appears exactly with Chinese subtitles, `dh` exactly with an animation or anime genre, and `wj` exactly when `tv_pack` is 1. |
| Audiences.TagsField | src/trackers/AUDIENCES.py:476-478 | `tags[]` is sent exactly when some tag applies, and then it is the non-empty tag list. |
| Audiences.TagsDistinct | src/trackers/AUDIENCES.py:459-474 | No tag appears twice. |
| Audiences.Uplver | src/trackers/AUDIENCES.py:402-405 | `uplver` is `'yes'` exactly when `anon` is 1 or the tracker is configured anonymous, and absent otherwise. |
| Audiences.UploadRoundTrip | src/trackers/AUDIENCES.py:496-505 | A redirect to `details.php?id=<digits>&uploaded=1` is accepted with those digits as torrent id and the URL without `&uploaded=1` as message. |
| Hhan.CategoryId | src/trackers/HHAN.py:205-224 | Last assignment wins, default `"EXIT"`: animation 403 over documentary 402 over TV 404 and MOVIE 401. Each is stated as an if-and-only-if. |
| Hhan.AnimatedDocumentary | src/trackers/HHAN.py:218-222 | An animated documentary is filed as animation. |
| Hhan.Anon | src/trackers/HHAN.py:367 | `'no'` exactly when `anon` is 0 and the tracker is not configured anonymous. Otherwise `'yes'`, including when `anon` is absent. |
| Hhan.UploadRoundTrip | src/trackers/HHAN.py:435-443 | A redirect to `details.php?id=<digits>&uploaded=1` is accepted with those digits as id and the URL without the flag as message. |
| HdSky.CategoryId | src/trackers/HDSKY.py:214-246 | Default `"0"`. MOVIE gives 401; TV gives 411 for a season pack and 402 otherwise. Documentary 404 is overridden by animation 405, which is overridden by variety (415 for a season pack, else 403). |
| HdSky.PackOnlyForSeries | src/trackers/HDSKY.py:214-246 | `tv_pack` changes nothing outside series and variety shows. |
| HdSky.Picture | src/trackers/HDSKY.py:398-413 | `picture` is the first image's `img_url`, and it is added exactly when there is an image and that URL is non-empty. |
| HdSky.PictureReadsFirstOnly | src/trackers/HDSKY.py:398-413 | Only the first image counts: images after it never change `picture`. |
| HdSky.OfferSuccessSimplified | src/trackers/HDSKY.py:432-435 | The success test holds exactly when lower(url) contains `offer` or the text contains `候选已添加`. The two `startswith` disjuncts are implied. |
| HdSky.OfferPagesHoldWord | src/trackers/HDSKY.py:432-433 | A URL starting with either offer page contains `offer` once lower-cased. |
| HdSky.OfferOutcome | src/trackers/HDSKY.py:432-444 | A failure exactly when the simplified test fails. With an `id=<digits>` in the query, the URL is the message. The offer id is then the whole ASCII digit run after the leftmost `id=<digit>`, as `re.search` finds it on ASCII digits. Without one, the message is `Offer submitted successfully`. |
| HdSky.OfferPageRoundTrip | src/trackers/HDSKY.py:432-442 | Landing on `offer.php?id=<digits>` records that URL and those digits, whatever the page text. |
| Shared.EditName | src/trackers/AUDIENCES.py:360-373 | The rewritten name never contains `PQ10`. For a WEBDL with `has_encode_settings` True it never contains `H.264`. |
| Shared.FinishName | src/trackers/AUDIENCES.py:368-373 | After `PQ10`→`HDR`, and `H.264`→`x264` when the condition holds, no `PQ10` is left and no `H.264` is left when renamed. Without the condition only the `PQ10` pass applies. |
| Shared.RemoveDubMarkers | src/trackers/AUDIENCES.py:363-365 | A name free of `Dubbed` and `Dual-Audio` is unchanged. |
| Shared.EditNameEmptyAka | src/trackers/AUDIENCES.py:367 | An empty aka removes nothing. |
| Shared.DubPassConsumesAll | src/trackers/AUDIENCES.py:363-365 | Each removal pass cuts the name at every occurrence present before the pass; no piece holds the marker. |
| Shared.DubPassCanLeaveMarker | src/trackers/AUDIENCES.py:363-365 | One pass is not a fixed point: `Dub`+`Dubbed`+`bed` leaves `Dubbed`. |
| Shared.EditNameKeepsCleanName | src/trackers/AUDIENCES.py:360-373 | A name with none of the markers and an empty aka is returned unchanged. |
| Shared.IsZhongzi | src/trackers/AUDIENCES.py:375-391 | `'yes'` exactly when there is Chinese subtitle evidence, None otherwise. |
| Shared.ZhongziSources | src/trackers/AUDIENCES.py:375-391 | Non-BDMV looks only at Text tracks with language `zh`; BDMV looks only at bdinfo subtitles equal to `Chinese`. |
| Shared.AreaId | src/trackers/AUDIENCES.py:125-140 | The result lies in 1..8. It is 8 when no `area_map` key is among the regions. Otherwise it is the value of the first key, in map order, that is among them. |
| Shared.AreaIgnoresRegionOrder | src/trackers/AUDIENCES.py:137-139 | Only which regions are listed matters, not their order or repetition. |
| Shared.AreaFollowsMapOrder | src/trackers/AUDIENCES.py:128-139 | Regions `['韩国', '日本']` give Japan's 6, not Korea's 5. |
| Shared.MediumId | src/trackers/AUDIENCES.py:142-167 | Type ids override disc ids: WEBDL 5, REMUX 3, ENCODE/WEBRIP 6, HDTV 4. Otherwise BDMV/HD DVD give `'1'` exactly at `2160p` and `'2'` otherwise, DVD gives 7, and nothing else gives `"EXIT"`. |
| Shared.MediumTypeOverridesDisc | src/trackers/AUDIENCES.py:152-165 | With a type-based id, disc kind and resolution do not affect the result. |
| Shared.DoubanAbsolute | src/trackers/HDSKY.py:161-166 | A leading `/` gets `https://movie.douban.com`. Any other non-`http` href gets `https://movie.douban.com/subject/`. An `http` href is kept. |
| Shared.DoubanFromHref | src/trackers/HDSKY.py:160-173 | The id is the whole ASCII digit run after the leftmost `/subject/<digit>` in the absolute href, as `re.search` finds it on ASCII digits. The URL kept is `https://movie.douban.com/subject/{id}/`. Nothing is recorded exactly when `/subject/` followed by a digit never occurs. |
| Shared.DoubanCanonicalFixed | src/trackers/CHD.py:164-177 | The canonical subject URL is a fixed point of the normalisation. |
| Shared.DoubanRelativeLink | src/trackers/HDSKY.py:163-171 | A relative `/subject/<id>/` link resolves to that subject. |
| Shared.DoubanBareId | src/trackers/HDSKY.py:165-171 | A bare id resolves to its subject page. |
| Shared.DoubanSubjectFirst | src/trackers/HDSKY.py:167-169 | On a subject page URL, the first `/subject/(\d+)` match is the id. |
| Shared.AcceptHash | src/trackers/U2.py:268-273 | A hash is kept exactly when its stripped text has length 40, and then it is that stripped text. |
| Shared.AcceptHashIdempotent | src/trackers/CHD.py:224-228 | An accepted hash passes the check again unchanged. |
| U2.CategoryId | src/trackers/U2.py:320-347 | Last assignment wins, default `"0"`: documentary 402 > variety 405 > animation 403 (genres or keywords `animation`, or genres `anime`) > TV 404 / MOVIE 401. Each is stated as an if-and-only-if. |
| U2.NoticeCaseFree | src/trackers/U2.py:167 | The notice `未登录` holds no ASCII letter, so finding it in the lower-cased page is the same test. |
| U2.PageDetails | src/trackers/U2.py:166-273 | A non-200 or logged-out page yields all five values None. Otherwise the scraped ids, name and description pass through. The hash is the accepted scraped hash text: present exactly when the element was found and its stripped text has length 40. |
| U2.SelectAid | src/trackers/U2.py:276-281 | The aid comes from the first match whose first non-empty group is all digits. None exactly when no match qualifies. |
| U2.AidRecordedFromFirstUsable | src/trackers/U2.py:276-283 | `meta['anidb_aid']` keeps its old value when no match is usable. Otherwise it becomes the aid of the first usable match. |
| U2.CleanImdb | src/trackers/U2.py:289-293 | The value is accepted exactly when `str(v).strip().lstrip('t')` is a non-empty digit string, and then it is that number. |
| U2.CleanImdbOfTitleId | src/trackers/U2.py:290-292 | `tt<digits>` yields its number. |
| U2.MergeIds | src/trackers/U2.py:284-304 | Ids are only filled, never overwritten: an IMDb or TMDb id already present is kept, and so is a truthy `mal_id`. Nothing changes unless a lookup ran. A changed slot holds the converted looked-up value, and that value is truthy. When the lookup runs, an empty slot is filled whenever its looked-up value is truthy and converts: IMDb by `strip().lstrip('t')` and `isdigit`, TMDb and MAL by `int()`. |
| U2.MergeFillsTitleId | src/trackers/U2.py:284-292 | When the lookup runs with no IMDb id yet, an answer `tt<n>` sets the IMDb id to `n`. |
| U2.MergeIdempotent | src/trackers/U2.py:284-304 | Merging the same answer again changes nothing. |
| Chd.FilterName | src/trackers/CHD.py:201-206 | A name survives exactly when it does not contain `未登录`, and then unchanged. |
| Chd.NameTestIsContainment | src/trackers/CHD.py:204 | The test `'未登录' in name or name == '未登录!'` equals containment alone. |
| Chd.FilterDescription | src/trackers/CHD.py:217-221 | A description is kept exactly when it does not contain `未登录`. |
| Chd.FiltersAgreeAndSettle | src/trackers/CHD.py:201-221 | The name and description filters apply the same notice test. Filtering twice removes nothing more. |
| Chd.PageDetails | src/trackers/CHD.py:121-228 | A non-200 or logged-out page yields all five values None. Otherwise the name and description are filtered, and neither can carry the notice. The hash is the accepted scraped hash text: present exactly when the element was found and its stripped text has length 40. |
| Chd.U2LoginIsChdLogin | src/trackers/CHD.py:121-125 | Every page U2's test calls logged-out is logged-out for CHD too. |
| Chd.NoticeAloneDiffers | src/trackers/CHD.py:123 | A page of just `未登录` is logged-out for CHD but not for U2, so CHD's test is strictly wider. |
| Chd.NoticeNameDropped | src/trackers/CHD.py:204-206 | On a page that passed the login test, a name `未登录!` is still dropped. |
| Urls.RedirectOutcome | src/trackers/HHAN.py:435-443 | Rejected exactly when the URL does not start with the details prefix. MissingId exactly when it does but the query has no `id=<digit>`. When accepted, the id is the whole digit run after the leftmost `id=<digit>` of the query. The message is the URL with every `&uploaded=1` removed. |
| Urls.RedirectMessage | src/trackers/HHAN.py:442 | An accepted upload's message is the redirect URL cut at every `&uploaded=1` and rejoined, so no piece kept carries the flag. A details prefix without `&` survives at the head of the message. |
| Urls.RedirectRoundTrip | src/trackers/AUDIENCES.py:496-503 | `<base>?id=<digits>&uploaded=1` yields exactly those digits and the URL without the flag. |
| Urls.Query | src/trackers/HHAN.py:437 | The query never contains `#` and is no longer than the URL. When the URL has a `?` with no `#` before it, the query is the text after the first `?`, up to the next `#` or the end. Otherwise the query is empty. |
| Urls.SearchDigits | src/trackers/HHAN.py:437 | A found value is the whole ASCII digit run after the leftmost `marker<digit>` occurrence, so on ASCII digits it is the greedy `\d+` of the first match. Nothing is found exactly when `marker` followed by a digit never occurs. |
| Urls.SearchDigitsIsFirstRun | src/trackers/HHAN.py:437 | The search answers `d` exactly when `d` is the whole digit run after the leftmost match, so the answer is determined by the text and the marker. |
| Release.FirstOfKind | src/trackers/MTEAM.py:209-231 | The first track of the given `@type`: None exactly when there is none. |
| Release.ScanTracks | src/trackers/MTEAM.py:308-314 | The track scan finds a track exactly when some track of that kind has a listed language. |
| Release.TagsTextHoldsItems | src/trackers/AUDIENCES.py:467-468 | Every genre of a list is found in the `', '`-joined text the adapter searches. |
| Release.PyStr | src/trackers/U2.py:290 | `str(v)` of a string is itself; of a non-negative int it is a digit string. |
| Agreement.CodecSelFollowsMTeam | src/trackers/AUDIENCES.py:206-233 | With a Video track, the Audiences codec selection is M-Team's video codec translated rung for rung; a format neither recognises is `"5"`. |
| Agreement.CodecLadderTranslation | src/trackers/AUDIENCES.py:218-231 | The two video cascades agree on any format text, up to the id translation. |
| Agreement.StandardSelFollowsMTeam | src/trackers/AUDIENCES.py:285-303 | The Audiences resolution selection is M-Team's standard translated; no standard gives `'11'`. |
| Agreement.StandardLadderTranslation | src/trackers/AUDIENCES.py:288-303 | The two resolution cascades agree on any text, up to the id translation. |
| Agreement.AudioSelFollowsMTeam | src/trackers/AUDIENCES.py:235-283 | With an Audio track: where M-Team names a codec, Audiences gives the same rung's id. Where M-Team has none, Audiences answers from APE/WAV/MP3/M4A or `"7"`. |
| Agreement.AudioLadderTranslation | src/trackers/AUDIENCES.py:248-281 | The two audio cascades agree on any format and profile, up to the translation and the four extra rungs. |
| Agreement.AudioExtraRungs | src/trackers/AUDIENCES.py:272-281 | Past M-Team's ten rungs only APE, WAV, MP3, M4A or the fallback remain. |
| Agreement.ChineseSubtitleFieldsAgree | src/trackers/AUDIENCES.py:462-464 | M-Team's `中字` label, `is_zhongzi` and the Audiences `zz` tag hold together. |
| Agreement.AnonymityAgrees | src/trackers/AUDIENCES.py:404-405 | Audiences sends `uplver` exactly when M-Team sets `anonymous`. |
| Agreement.AbsentAnonDiffers | src/trackers/HHAN.py:367 | With `anon` absent, HHAN sends `'yes'` while M-Team and Audiences are anonymous only by configuration. |

## Left out

- HTTP traffic: credential checks, searches, uploads, torrent downloads, the ids.moe call and the M-Team multipart, JSON and base64 fallback. Upload and page results enter the model as values: final URL, status and page text.
- HTML scraping with BeautifulSoup. The scraped values arrive as `U2.Scraped`. The Douban and AniDB searches over the raw page text are not modelled; the AniDB regular expression is abstracted as the list of its matches and their three groups (`U2.AidMatch`).
- Cookie files, torrent creation, PtGen, `edit_desc`, `get_mediainfo_text` and other file I/O: these are calls into collaborators that are not part of this model.
- The `unidecode` transliteration, console output, debug mode and async scheduling.
- Unicode: `lower()`, `upper()`, `strip()` and `isdigit()` are modelled on ASCII letters, ASCII whitespace and ASCII digits.
- Urls.SearchDigits: the `\d` of the `(id=)(\d+)` and `/subject/(\d+)` searches matches ASCII digits only. Python's `re` also matches other Unicode decimal digits there. A redirect such as `details.php?id=٣٤٥&uploaded=1` is an accepted upload with id `٣٤٥` in the source, but `MissingId` in the model. Ids made of other digits are outside the model.
- `int()` of a string strips surrounding ASCII whitespace and accepts an optional sign and ASCII digits; underscores and non-ASCII digits and whitespace are not modelled. `int()` of a float is not modelled, and JSON values are null, booleans, integers or strings.
- `meta['resolution']` raising KeyError in `get_type_medium_id`: the record always carries a resolution.
- `meta.get('anon')` is `Option<int>`; a boolean `True`/`False` is 1/0, as Python's `==` treats it. `has_encode_settings is True` is a boolean.
- The `if meta` guards around recording the Douban id and `mal_id`: the record is always present.
- A MediaInfo track without `@type`: the label and `is_zhongzi` scans read `track['@type']` (MTEAM.py:310 and 329, AUDIENCES.py:381), which raises KeyError for such a track. The model gives the track kind `""`, so the scans treat it as non-matching and go on.
- HDSKY `Picture`: a non-string `img_url` is not modelled; image URLs are strings.
- The M-Team IMDb link field, `search_existing` and `edit_desc` of every adapter are outside the mapping layer.
- Urls.Query: the full `urlparse` grammar (scheme, netloc, params) is reduced to "after the first `?`, before the first `#`", which is what the id search reads.
- MTeam.SmallDescr: its own ensures covers only the `['']` case. The general shape is stated by MTeam.SmallDescrJoinsTitles.
- MTeam.SmallDescrJoinsTitles: translated titles that hold `/` or `|` are not characterised. There a `/ |` can form across a title and its separator.
- Shared.EditName: only the absence of `PQ10` and `H.264` is stated for arbitrary names; the effect of the aka removal on arbitrary text is not characterised.

=== FILE: agreement.dfy ===
/**
 Where the adapters agree and where they part. M-Team and Audiences run the
 same codec and resolution cascades with different ids; several adapters
 read the same subtitle and anonymity settings into different fields. The
 lemmas here tie those fields together across adapters.
 */
module Agreement {
  import opened Text
  import opened Ladder
  import opened Release
  import opened Shared
  import MTeam
  import Audiences
  import Hhan

  /** The Audiences codec id for each M-Team video codec; `"5"` (other)
      where M-Team has none. */
  function CodecFor(video: Option<string>): (r: string)
  {
    match video
    case None => "5"
    case Some(v) =>
      if v == "H.265" then "6"
      else if v == "H.264" then "1"
      else if v == "VC-1" then "2"
      else if v == "MPEG-2" then "4"
      else if v == "AV1" then "7"
      else "5"
  }

  // The ladders are passed as parameters pinned by `requires` rather than
  // named in the contracts: a constant ladder in a contract is unfolded into
  // every proof that mentions it, and the parameters keep it folded until
  // the proof asks for its rungs.

  /** The two codec cascades, on any format text. */
  lemma CodecLadderTranslation(a: seq<Rung<string>>, b: seq<Rung<string>>, codec: string)
    requires a == MTeam.VideoLadder && b == Audiences.CodecLadder
    ensures FirstRungOr(b, codec, "", "5") == CodecFor(FirstRung(a, codec, ""))
  {
    assert SameMarkers(a, b, |a|);
    RelabelledOr(a, b, codec, "", "5");
    var h := FirstHit(a, codec, "");
    if h.Some? {
      CodecIdsTranslate(a, b, h.value);
    }
  }

  lemma CodecIdsTranslate(a: seq<Rung<string>>, b: seq<Rung<string>>, i: nat)
    requires a == MTeam.VideoLadder && b == Audiences.CodecLadder
    requires i < |a|
    ensures i < |b| && CodecFor(Some(a[i].id)) == b[i].id
  {
  }

  /** The Audiences codec field is M-Team's video codec translated, rung for
      rung; a format neither recognises is "other". */
  lemma CodecSelFollowsMTeam(m: Meta)
    requires FirstOfKind(m.tracks, "Video").Some?
    ensures Audiences.CodecSel(m) == CodecFor(MTeam.VideoCodecId(m))
  {
    CodecLadderTranslation(MTeam.VideoLadder, Audiences.CodecLadder, Upper(FirstOfKind(m.tracks, "Video").value.format));
  }

  /** The Audiences standard id for each M-Team standard; `"11"` where
      M-Team has none. */
  function StandardFor(standard: Option<string>): (r: string)
  {
    match standard
    case None => "11"
    case Some(v) =>
      if v == "8K" then "10"
      else if v == "4K" then "5"
      else if v == "1080p" then "1"
      else if v == "1080i" then "2"
      else if v == "720p" then "3"
      else if v == "SD" then "4"
      else "11"
  }

  lemma StandardLadderTranslation(a: seq<Rung<string>>, b: seq<Rung<string>>, res: string)
    requires a == MTeam.StandardLadder && b == Audiences.StandardLadder
    ensures FirstRungOr(b, res, "", "11") == StandardFor(FirstRung(a, res, ""))
  {
    assert SameMarkers(a, b, |a|);
    RelabelledOr(a, b, res, "", "11");
    var h := FirstHit(a, res, "");
    if h.Some? {
      StandardIdsTranslate(a, b, h.value);
    }
  }

  lemma StandardIdsTranslate(a: seq<Rung<string>>, b: seq<Rung<string>>, i: nat)
    requires a == MTeam.StandardLadder && b == Audiences.StandardLadder
    requires i < |a|
    ensures i < |b| && StandardFor(Some(a[i].id)) == b[i].id
  {
  }

  /** The Audiences standard field is M-Team's standard translated, rung
      for rung; an unrecognised resolution is "other". */
  lemma StandardSelFollowsMTeam(m: Meta)
    ensures Audiences.StandardSel(m) == StandardFor(MTeam.StandardId(m))
  {
    StandardLadderTranslation(MTeam.StandardLadder, Audiences.StandardLadder, Lower(m.resolution));
  }

  /** The Audiences audio id for each M-Team audio codec. */
  function AudioFor(audio: string): (r: string)
  {
    if audio == "DTS:X" then "25"
    else if audio == "TrueHD Atmos" then "26"
    else if audio == "DTS-HD MA" then "19"
    else if audio == "TrueHD" then "20"
    else if audio == "LPCM" then "21"
    else if audio == "DTS" then "3"
    else if audio == "AC3" then "18"
    else if audio == "OPUS" then "27"
    else if audio == "AAC" then "6"
    else if audio == "FLAC" then "1"
    else "7"
  }

  /** The two audio cascades, on any format and profile text. */
  lemma AudioLadderTranslation(a: seq<Rung<string>>, b: seq<Rung<string>>, codec: string, profile: string)
    requires a == MTeam.AudioLadder && b == Audiences.AudioLadder
    ensures FirstRung(a, codec, profile).Some? ==>
      FirstRungOr(b, codec, profile, "7") == AudioFor(FirstRung(a, codec, profile).value)
    ensures FirstRung(a, codec, profile).None? ==>
      FirstRungOr(b, codec, profile, "7") in {"2", "22", "23", "24", "7"}
  {
    assert SameMarkers(a, b, |a|);
    RelabelledOr(a, b, codec, profile, "7");
    var h := FirstHit(a, codec, profile);
    if h.Some? {
      AudioIdsTranslate(a, b, h.value);
    } else {
      SharedRungs(a, b, |a|, codec, profile);
      AudioExtraRungs(a, b, codec, profile);
    }
  }

  lemma AudioIdsTranslate(a: seq<Rung<string>>, b: seq<Rung<string>>, i: nat)
    requires a == MTeam.AudioLadder && b == Audiences.AudioLadder
    requires i < |a|
    ensures i < |b| && AudioFor(a[i].id) == b[i].id
  {
  }

  /** Past M-Team's ten rungs, Audiences has only the four extra ones. */
  lemma AudioExtraRungs(a: seq<Rung<string>>, b: seq<Rung<string>>, codec: string, profile: string)
    requires a == MTeam.AudioLadder && b == Audiences.AudioLadder
    requires FirstHit(b, codec, profile).None? || FirstHit(b, codec, profile).value >= |a|
    ensures FirstRungOr(b, codec, profile, "7") in {"2", "22", "23", "24", "7"}
  {
    var hb := FirstHit(b, codec, profile);
    if hb.Some? {
      assert b[hb.value].id in {"2", "22", "23", "24"};
    }
  }

  /** Where M-Team names the audio codec, Audiences gives the same rung's
      id; where M-Team has none, Audiences answers from its four extra rungs
      (APE, WAV, MP3, M4A) or "other". */
  lemma AudioSelFollowsMTeam(m: Meta)
    requires FirstOfKind(m.tracks, "Audio").Some?
    ensures MTeam.AudioCodecId(m).Some? ==> Audiences.AudioCodecSel(m) == AudioFor(MTeam.AudioCodecId(m).value)
    ensures MTeam.AudioCodecId(m).None? ==> Audiences.AudioCodecSel(m) in {"2", "22", "23", "24", "7"}
  {
    var track := FirstOfKind(m.tracks, "Audio").value;
    AudioLadderTranslation(MTeam.AudioLadder, Audiences.AudioLadder, Upper(track.format), Upper(track.profile));
  }

  /** M-Team's `中字` label, the shared `is_zhongzi` field and the Audiences
      `zz` tag all follow the Chinese-subtitle test. */
  lemma ChineseSubtitleFieldsAgree(m: Meta)
    ensures "中字" in MTeam.Labels(m) <==> IsZhongzi(m).Some?
    ensures IsZhongzi(m).Some? <==> "zz" in Audiences.Tags(m)
  {
  }

  /** Audiences sends `uplver` exactly when M-Team sets `anonymous`. */
  lemma AnonymityAgrees(anon: Option<int>, configAnon: bool)
    ensures Audiences.Uplver(anon, configAnon).Some? <==> MTeam.Anonymous(anon, configAnon)
  {
  }

  /** A release with no `anon` setting goes up anonymously to HHAN and
      openly to M-Team and Audiences unless the tracker is configured
      anonymous. */
  lemma AbsentAnonDiffers(configAnon: bool)
    ensures Hhan.Anon(None, configAnon) == "yes"
    ensures MTeam.Anonymous(None, configAnon) <==> configAnon
    ensures Audiences.Uplver(None, configAnon).None? <==> !configAnon
  {
  }
}

=== FILE: audiences.dfy ===
/**
 The Audiences adapter: the category, medium, codec, audio codec and
 resolution selections of its upload form, the tag list, the anonymity
 checkbox and the details-page redirect. The area id, the medium id, the
 subtitle flag and the release name come from `Shared`.
 */
module Audiences {
  import opened Text
  import opened Ladder
  import opened Release
  import opened Urls
  import opened Shared

  // ---------------------------------------------------------------------------
  // Category
  // ---------------------------------------------------------------------------

  /** `get_type_category_id`: every `if` overwrites the id of the ones before
      it, so documentary beats variety, which beats the category. */
  function CategoryId(m: Meta): (r: string)
    ensures r == "406" <==> DocumentaryTagged(m)
    ensures r == "403" <==> !DocumentaryTagged(m) && VarietyTagged(m)
    ensures r == "402" <==> !DocumentaryTagged(m) && !VarietyTagged(m) && m.category == "TV"
    ensures r == "401" <==> !DocumentaryTagged(m) && !VarietyTagged(m) && m.category == "MOVIE"
    ensures r == "0" <==> !DocumentaryTagged(m) && !VarietyTagged(m) && m.category != "TV" && m.category != "MOVIE"
  {
    var id := "0";
    var id := if m.category == "MOVIE" then "401" else id;
    var id := if m.category == "TV" then "402" else id;
    var id := if VarietyTagged(m) then "403" else id;
    var id := if DocumentaryTagged(m) then "406" else id;
    id
  }

  // ---------------------------------------------------------------------------
  // Medium selection
  // ---------------------------------------------------------------------------

  /** `get_medium_sel`: the Blu-ray ids by resolution and by whether the
      disc was re-authored (`has_encode_settings`), then DVD, then the
      type-based ids, each overwriting the ones before. */
  function MediumSel(m: Meta): (r: string)
    ensures r in {"0", "12", "13", "1", "14", "2", "3", "5", "10", "15"}
    ensures m.mediaType == "REMUX" ==> r == "3"
    ensures m.mediaType == "HDTV" ==> r == "5"
    ensures m.mediaType == "WEBDL" ==> r == "10"
    ensures m.mediaType in EncodeTypes ==> r == "15"
    ensures m.mediaType !in {"REMUX", "HDTV", "WEBDL", "ENCODE", "WEBRIP"} ==>
      && (r == "13" <==> m.isDisc == "BDMV" && m.resolution == "2160p" && m.hasEncodeSettings)
      && (r == "12" <==> m.isDisc == "BDMV" && m.resolution == "2160p" && !m.hasEncodeSettings)
      && (r == "14" <==> m.isDisc == "BDMV" && m.resolution != "2160p" && m.hasEncodeSettings)
      && (r == "1" <==> m.isDisc == "BDMV" && m.resolution != "2160p" && !m.hasEncodeSettings)
      && (r == "2" <==> m.isDisc == "DVD")
      && (r == "0" <==> m.isDisc != "BDMV" && m.isDisc != "DVD")
  {
    var id := "0";
    var id :=
      if m.isDisc == "BDMV" then
        if m.resolution == "2160p" then (if m.hasEncodeSettings then "13" else "12")
        else (if m.hasEncodeSettings then "14" else "1")
      else id;
    var id := if m.isDisc == "DVD" then "2" else id;
    var id := if m.mediaType == "REMUX" then "3" else id;
    var id := if m.mediaType == "HDTV" then "5" else id;
    var id := if m.mediaType == "WEBDL" then "10" else id;
    var id := if m.mediaType in EncodeTypes then "15" else id;
    id
  }

  /** The form selection and the medium id classify releases alike, except
      that an HD DVD has a medium id but no form selection. */
  lemma MediumSelMatchesMediumId(m: Meta)
    ensures MediumSel(m) == "0" <==> MediumId(m) == "EXIT" || (MediumId(m) in {"1", "2"} && m.isDisc == "HD DVD")
    ensures MediumSel(m) == "3" <==> MediumId(m) == "3"
    ensures MediumSel(m) == "5" <==> MediumId(m) == "4"
    ensures MediumSel(m) == "10" <==> MediumId(m) == "5"
    ensures MediumSel(m) == "15" <==> MediumId(m) == "6"
    ensures MediumSel(m) == "2" <==> MediumId(m) == "7"
  {
  }

  // ---------------------------------------------------------------------------
  // Codec, audio codec and resolution selections
  // ---------------------------------------------------------------------------

  const CodecLadder: seq<Rung<string>> := [
    Rung([InMain("HEVC"), InMain("H.265"), InMain("X265")], "6"),
    Rung([InMain("AVC"), InMain("H.264"), InMain("X264")], "1"),
    Rung([InMain("VC-1")], "2"),
    Rung([InMain("MPEG-2"), InMain("MPEG2")], "4"),
    Rung([InMain("AV1")], "7")
  ]

  /** `get_codec_sel`: `"0"` without a Video track, otherwise the codec
      ladder on the upper-cased format of the first Video track, `"5"` when
      no rung matches. */
  function CodecSel(m: Meta): (r: string)
    ensures r == "0" <==> FirstOfKind(m.tracks, "Video").None?
    ensures FirstOfKind(m.tracks, "Video").Some? ==>
      r == FirstRungOr(CodecLadder, Upper(FirstOfKind(m.tracks, "Video").value.format), "", "5")
  {
    match FirstOfKind(m.tracks, "Video")
    case None => "0"
    case Some(track) => CodecSelOf(Upper(track.format))
  }

  function CodecSelOf(codec: string): (r: string)
    ensures r == FirstRungOr(CodecLadder, codec, "", "5")
  {
    CodecRungs(codec);
    if Contains(codec, "HEVC") || Contains(codec, "H.265") || Contains(codec, "X265") then "6"
    else if Contains(codec, "AVC") || Contains(codec, "H.264") || Contains(codec, "X264") then "1"
    else if Contains(codec, "VC-1") then "2"
    else if Contains(codec, "MPEG-2") || Contains(codec, "MPEG2") then "4"
    else if Contains(codec, "AV1") then "7"
    else "5"
  }

  lemma CodecRungs(codec: string)
    ensures RungHit(CodecLadder[0], codec, "") <==> Contains(codec, "HEVC") || Contains(codec, "H.265") || Contains(codec, "X265")
    ensures RungHit(CodecLadder[1], codec, "") <==> Contains(codec, "AVC") || Contains(codec, "H.264") || Contains(codec, "X264")
    ensures RungHit(CodecLadder[2], codec, "") <==> Contains(codec, "VC-1")
    ensures RungHit(CodecLadder[3], codec, "") <==> Contains(codec, "MPEG-2") || Contains(codec, "MPEG2")
    ensures RungHit(CodecLadder[4], codec, "") <==> Contains(codec, "AV1")
  {
  }

  /** HEVC is tested before AVC: a format naming both is filed as H.265. */
  lemma HevcBeforeAvc(m: Meta)
    requires FirstOfKind(m.tracks, "Video").Some?
    requires Contains(Upper(FirstOfKind(m.tracks, "Video").value.format), "HEVC")
    ensures CodecSel(m) == "6"
  {
  }

  /** The main text is the upper-cased format, the extra text the
      upper-cased format profile; APE, WAV, MP3 and M4A extend the ladder
      M-Team uses. */
  const AudioLadder: seq<Rung<string>> := [
    Rung([InExtra("DTS:X"), InExtra("DTSX")], "25"),
    Rung([InExtra("ATMOS"), InMain("TRUEHD ATMOS")], "26"),
    Rung([InMain("DTS-HD"), InMain("DTSHD")], "19"),
    Rung([InMain("TRUEHD")], "20"),
    Rung([InMain("LPCM"), InMain("PCM")], "21"),
    Rung([InMain("DTS")], "3"),
    Rung([InMain("AC3"), InMain("DD"), InMain("DOLBY DIGITAL")], "18"),
    Rung([InMain("OPUS")], "27"),
    Rung([InMain("AAC")], "6"),
    Rung([InMain("FLAC")], "1"),
    Rung([InMain("APE")], "2"),
    Rung([InMain("WAV")], "22"),
    Rung([InMain("MP3")], "23"),
    Rung([InMain("M4A")], "24")
  ]

  /** `get_audiocodec_sel`: `"0"` without an Audio track, otherwise the
      audio ladder on the first Audio track, `"7"` when no rung matches. */
  function AudioCodecSel(m: Meta): (r: string)
    ensures r == "0" <==> FirstOfKind(m.tracks, "Audio").None?
    ensures FirstOfKind(m.tracks, "Audio").Some? ==>
      var track := FirstOfKind(m.tracks, "Audio").value;
      r == FirstRungOr(AudioLadder, Upper(track.format), Upper(track.profile), "7")
  {
    match FirstOfKind(m.tracks, "Audio")
    case None => "0"
    case Some(track) => AudioSelOf(Upper(track.format), Upper(track.profile))
  }

  function AudioSelOf(codec: string, profile: string): (r: string)
    ensures r != "0"
    ensures r == FirstRungOr(AudioLadder, codec, profile, "7")
  {
    AudioRungs(codec, profile);
    AudioRungsLater(codec, profile);
    if Contains(profile, "DTS:X") || Contains(profile, "DTSX") then "25"
    else if Contains(profile, "ATMOS") || Contains(codec, "TRUEHD ATMOS") then "26"
    else if Contains(codec, "DTS-HD") || Contains(codec, "DTSHD") then "19"
    else if Contains(codec, "TRUEHD") then "20"
    else if Contains(codec, "LPCM") || Contains(codec, "PCM") then "21"
    else if Contains(codec, "DTS") then "3"
    else if Contains(codec, "AC3") || Contains(codec, "DD") || Contains(codec, "DOLBY DIGITAL") then "18"
    else if Contains(codec, "OPUS") then "27"
    else if Contains(codec, "AAC") then "6"
    else if Contains(codec, "FLAC") then "1"
    else if Contains(codec, "APE") then "2"
    else if Contains(codec, "WAV") then "22"
    else if Contains(codec, "MP3") then "23"
    else if Contains(codec, "M4A") then "24"
    else "7"
  }

  lemma AudioRungs(codec: string, profile: string)
    ensures RungHit(AudioLadder[0], codec, profile) <==> Contains(profile, "DTS:X") || Contains(profile, "DTSX")
    ensures RungHit(AudioLadder[1], codec, profile) <==> Contains(profile, "ATMOS") || Contains(codec, "TRUEHD ATMOS")
    ensures RungHit(AudioLadder[2], codec, profile) <==> Contains(codec, "DTS-HD") || Contains(codec, "DTSHD")
    ensures RungHit(AudioLadder[3], codec, profile) <==> Contains(codec, "TRUEHD")
    ensures RungHit(AudioLadder[4], codec, profile) <==> Contains(codec, "LPCM") || Contains(codec, "PCM")
    ensures RungHit(AudioLadder[5], codec, profile) <==> Contains(codec, "DTS")
    ensures RungHit(AudioLadder[6], codec, profile) <==> Contains(codec, "AC3") || Contains(codec, "DD") || Contains(codec, "DOLBY DIGITAL")
  {
  }

  lemma AudioRungsLater(codec: string, profile: string)
    ensures RungHit(AudioLadder[7], codec, profile) <==> Contains(codec, "OPUS")
    ensures RungHit(AudioLadder[8], codec, profile) <==> Contains(codec, "AAC")
    ensures RungHit(AudioLadder[9], codec, profile) <==> Contains(codec, "FLAC")
    ensures RungHit(AudioLadder[10], codec, profile) <==> Contains(codec, "APE")
    ensures RungHit(AudioLadder[11], codec, profile) <==> Contains(codec, "WAV")
    ensures RungHit(AudioLadder[12], codec, profile) <==> Contains(codec, "MP3")
    ensures RungHit(AudioLadder[13], codec, profile) <==> Contains(codec, "M4A")
  {
  }

  const StandardLadder: seq<Rung<string>> := [
    Rung([InMain("8k"), InMain("7680")], "10"),
    Rung([InMain("4k"), InMain("2160p"), InMain("2160i")], "5"),
    Rung([InMain("1080p")], "1"),
    Rung([InMain("1080i")], "2"),
    Rung([InMain("720p"), InMain("720i")], "3"),
    Rung([InMain("480p"), InMain("480i"), InMain("576p"), InMain("576i")], "4")
  ]

  /** `get_standard_sel`: the resolution ladder on the lower-cased
      resolution, `'11'` when no marker is found. */
  function StandardSel(m: Meta): (r: string)
    ensures r in {"10", "5", "1", "2", "3", "4", "11"}
    ensures r == FirstRungOr(StandardLadder, Lower(m.resolution), "", "11")
  {
    StandardSelOf(Lower(m.resolution))
  }

  function StandardSelOf(res: string): (r: string)
    ensures r in {"10", "5", "1", "2", "3", "4", "11"}
    ensures r == FirstRungOr(StandardLadder, res, "", "11")
  {
    StandardRungs(res);
    if Contains(res, "8k") || Contains(res, "7680") then "10"
    else if Contains(res, "4k") || Contains(res, "2160p") || Contains(res, "2160i") then "5"
    else if Contains(res, "1080p") then "1"
    else if Contains(res, "1080i") then "2"
    else if Contains(res, "720p") || Contains(res, "720i") then "3"
    else if Contains(res, "480p") || Contains(res, "480i") || Contains(res, "576p") || Contains(res, "576i") then "4"
    else "11"
  }

  lemma StandardRungs(res: string)
    ensures RungHit(StandardLadder[0], res, "") <==> Contains(res, "8k") || Contains(res, "7680")
    ensures RungHit(StandardLadder[1], res, "") <==> Contains(res, "4k") || Contains(res, "2160p") || Contains(res, "2160i")
    ensures RungHit(StandardLadder[2], res, "") <==> Contains(res, "1080p")
    ensures RungHit(StandardLadder[3], res, "") <==> Contains(res, "1080i")
    ensures RungHit(StandardLadder[4], res, "") <==> Contains(res, "720p") || Contains(res, "720i")
    ensures RungHit(StandardLadder[5], res, "") <==>
      Contains(res, "480p") || Contains(res, "480i") || Contains(res, "576p") || Contains(res, "576i")
  {
  }

  // ---------------------------------------------------------------------------
  // Tags and anonymity
  // ---------------------------------------------------------------------------

  /** The tags in the order the adapter appends them. */
  const TagOrder: seq<string> := ["zz", "dh", "wj"]

  function TagRank(t: string): nat {
    if t == "zz" then 0 else if t == "dh" then 1 else 2
  }

  predicate AnimeGenre(m: Meta) {
    Contains(GenresLower(m), "animation") || Contains(GenresLower(m), "anime")
  }

  /** `zz` for Chinese subtitles, `dh` for an animation or anime genre, `wj`
      for a complete season pack. */
  function Tags(m: Meta): (tags: seq<string>)
    ensures forall i :: 0 <= i < |tags| ==> tags[i] in TagOrder
    ensures forall i, j :: 0 <= i < j < |tags| ==> TagRank(tags[i]) < TagRank(tags[j])
    ensures "zz" in tags <==> ChineseSubtitles(m)
    ensures "dh" in tags <==> AnimeGenre(m)
    ensures "wj" in tags <==> m.tvPack == 1
  {
    (if IsZhongzi(m) == Some("yes") then ["zz"] else [])
      + (if AnimeGenre(m) then ["dh"] else [])
      + (if m.tvPack == 1 then ["wj"] else [])
  }

  /** The `tags[]` field, present only when some tag applies. */
  function TagsField(m: Meta): (r: Option<seq<string>>)
    ensures r.None? <==> !ChineseSubtitles(m) && !AnimeGenre(m) && m.tvPack != 1
    ensures r.Some? ==> |r.value| > 0 && r.value == Tags(m)
  {
    var tags := Tags(m);
    if |tags| > 0 then Some(tags) else None
  }

  /** No tag appears twice. */
  lemma TagsDistinct(m: Meta)
    ensures forall i, j :: 0 <= i < j < |Tags(m)| ==> Tags(m)[i] != Tags(m)[j]
  {
  }

  /** The `uplver` checkbox: `'yes'` when the release's `anon` is 1 or the
      tracker is configured anonymous, left out otherwise. */
  function Uplver(anon: Option<int>, configAnon: bool): (r: Option<string>)
    ensures r.Some? <==> anon == Some(1) || configAnon
    ensures r.Some? ==> r.value == "yes"
  {
    if anon == Some(1) || configAnon then Some("yes") else None
  }

  // ---------------------------------------------------------------------------
  // Upload redirect
  // ---------------------------------------------------------------------------

  const DetailsPage := "https://audiences.me/details.php"

  /** An accepted upload lands on `details.php?id=<digits>&uploaded=1`; the
      adapter reports the URL without the flag and the digits as the id.
      The page is a parameter pinned by `requires` so that the proof does not
      unfold the prefix test over the literal. */
  lemma UploadRoundTrip(base: string, d: string)
    requires base == DetailsPage
    requires IsDigitString(d)
    ensures RedirectOutcome(base + "?id=", base + "?id=" + d + UploadedFlag) == Accepted(base + "?id=" + d, d)
  {
    assert forall k :: 0 <= k < |base| ==> base[k] != '?' && base[k] != '#' && base[k] != '&';
    RedirectRoundTrip(base, d);
  }
}

=== FILE: chd.dfy ===
/**
 The CHD adapter: its logged-out page test and the two filters that drop
 a scraped name or description carrying the "not logged in" notice. Its
 category id is the one `U2.CategoryId` models (the two adapters carry the
 same code); the area id, the medium id, the Douban link and the hash check
 come from `Shared`.
 */
module Chd {
  import opened Text
  import opened Shared
  import U2

  /** The page is a login page: it shows the "not logged in" notice, or its
      lower-cased text holds `login` and one of `username` or `password`. */
  predicate LoggedOut(text: string) {
    var page := Lower(text);
    Contains(text, U2.NotLoggedIn)
      || (Contains(page, "login") && (Contains(page, "username") || Contains(page, "password")))
  }

  /** The name check as written: the notice anywhere in the name, or the
      name being exactly the notice followed by `!`. */
  predicate NameShowsLogin(name: string) {
    Contains(name, U2.NotLoggedIn) || name == U2.NotLoggedIn + "!"
  }

  /** The exact-match test adds nothing: `未登录!` already holds the notice. */
  lemma NameTestIsContainment(name: string, notice: string)
    requires notice == U2.NotLoggedIn
    ensures NameShowsLogin(name) <==> Contains(name, notice)
  {
    if name == notice + "!" {
      assert name[0..][..|notice|] == notice;
      ContainsAt(name, notice, 0);
    }
  }

  /** A scraped name survives only when it does not show the notice. */
  function FilterName(name: Option<string>): (r: Option<string>)
    ensures r.Some? <==> name.Some? && !Contains(name.value, U2.NotLoggedIn)
    ensures r.Some? ==> r == name
  {
    match name {
      case None => None
      case Some(n) =>
        NameTestIsContainment(n, U2.NotLoggedIn);
        if NameShowsLogin(n) then None else name
    }
  }

  /** A scraped description survives only when it does not hold the notice. */
  function FilterDescription(description: Option<string>): (r: Option<string>)
    ensures r.Some? <==> description.Some? && !Contains(description.value, U2.NotLoggedIn)
    ensures r.Some? ==> r == description
  {
    match description {
      case None => None
      case Some(d) => if Contains(d, U2.NotLoggedIn) then None else description
    }
  }

  /** The name and description filters apply the same test, and filtering
      a second time removes nothing more. */
  lemma FiltersAgreeAndSettle(value: Option<string>)
    ensures FilterName(value) == FilterDescription(value)
    ensures FilterName(FilterName(value)) == FilterName(value)
    ensures FilterDescription(FilterDescription(value)) == FilterDescription(value)
  {
  }

  /** The five values the CHD details page yields: nothing unless it answered
      200 and is not a login page; otherwise the scraped values, with the name
      and description filtered and the hash kept only at 40 characters. */
  function PageDetails(status: int, text: string, scraped: U2.Scraped): (r: U2.Details)
    ensures status != 200 || LoggedOut(text) ==> r == U2.NoDetails
    ensures status == 200 && !LoggedOut(text) ==>
      && r.imdb == scraped.imdb && r.tmdb == scraped.tmdb
      && r.name == FilterName(scraped.name)
      && r.description == FilterDescription(scraped.description)
    ensures r.name.Some? ==> !Contains(r.name.value, U2.NotLoggedIn)
    ensures r.description.Some? ==> !Contains(r.description.value, U2.NotLoggedIn)
    ensures r.torrentHash.Some? ==> |r.torrentHash.value| == 40
    ensures r.torrentHash.Some? ==> scraped.hashText.Some? && r.torrentHash == AcceptHash(scraped.hashText.value)
    ensures status == 200 && !LoggedOut(text) ==>
      r.torrentHash == (if scraped.hashText.Some? then AcceptHash(scraped.hashText.value) else None)
  {
    if status != 200 || LoggedOut(text) then U2.NoDetails
    else
      var hash := match scraped.hashText {
        case None => None
        case Some(t) => AcceptHash(t)
      };
      U2.Details(scraped.imdb, scraped.tmdb, FilterName(scraped.name), hash, FilterDescription(scraped.description))
  }

  /** A page U2 takes for a login page CHD takes for one too. */
  lemma U2LoginIsChdLogin(text: string)
    requires U2.LoggedOut(text)
    ensures LoggedOut(text)
  {
  }

  /** CHD's test is strictly wider: the bare notice is a login page to CHD
      but not to U2, which also wants `login` in the page. */
  lemma NoticeAloneDiffers(text: string)
    requires text == U2.NotLoggedIn
    ensures LoggedOut(text) && !U2.LoggedOut(text)
  {
    ContainsSelf(text);
    ContainsFits(Lower(text), "login");
  }

  /** A name cell reading `未登录!` on a page that passed the login test is
      still dropped. */
  lemma NoticeNameDropped(status: int, text: string, scraped: U2.Scraped)
    requires status == 200 && !LoggedOut(text)
    requires scraped.name == Some(U2.NotLoggedIn + "!")
    ensures PageDetails(status, text, scraped).name.None?
  {
    NameTestIsContainment(U2.NotLoggedIn + "!", U2.NotLoggedIn);
  }
}

=== FILE: hdsky.dfy ===
/**
 The HDSKY adapter, which submits offers rather than torrents: its category
 id (with the season-pack variants), the picture field and the success
 test on the page an offer submission lands on. The area id, the medium
 id, the subtitle flag, the release name and the Douban link come from
 `Shared`.
 */
module HdSky {
  import opened Text
  import opened Release
  import opened Urls

  // ---------------------------------------------------------------------------
  // Category
  // ---------------------------------------------------------------------------

  /** `get_type_category_id`: each `if` overwrites the ones before it, so
      variety beats animation, which beats documentary, which beats the
      category; a season pack (`tv_pack == 1`) picks the collection ids. */
  function CategoryId(m: Meta): (r: string)
    ensures r in {"0", "401", "411", "402", "404", "405", "415", "403"}
    ensures VarietyTagged(m) ==> r == (if m.tvPack == 1 then "415" else "403")
    ensures !VarietyTagged(m) ==> (r == "405" <==> AnimationTagged(m))
    ensures !VarietyTagged(m) && !AnimationTagged(m) ==> (r == "404" <==> DocumentaryTagged(m))
    ensures !VarietyTagged(m) && !AnimationTagged(m) && !DocumentaryTagged(m) ==>
      && (r == "411" <==> m.category == "TV" && m.tvPack == 1)
      && (r == "402" <==> m.category == "TV" && m.tvPack != 1)
      && (r == "401" <==> m.category == "MOVIE")
      && (r == "0" <==> m.category != "TV" && m.category != "MOVIE")
  {
    var id := "0";
    var id := if m.category == "MOVIE" then "401" else id;
    var id := if m.category == "TV" then (if m.tvPack == 1 then "411" else "402") else id;
    var id := if DocumentaryTagged(m) then "404" else id;
    var id := if AnimationTagged(m) then "405" else id;
    var id := if VarietyTagged(m) then (if m.tvPack == 1 then "415" else "403") else id;
    id
  }

  /** The pack flag matters only for series and variety shows. */
  lemma PackOnlyForSeries(m: Meta, tvPack: int)
    requires m.category != "TV" && !VarietyTagged(m)
    ensures CategoryId(m) == CategoryId(m.(tvPack := tvPack))
  {
  }

  // ---------------------------------------------------------------------------
  // Picture
  // ---------------------------------------------------------------------------

  /** The `picture` field: the `img_url` of the first screenshot (`""` where
      the key is absent), added only when non-empty. */
  function Picture(imageUrls: seq<string>): (r: Option<string>)
    ensures r.None? <==> |imageUrls| == 0 || imageUrls[0] == ""
    ensures r.Some? ==> r.value == imageUrls[0]
  {
    var url := if |imageUrls| > 0 then imageUrls[0] else "";
    if url != "" then Some(url) else None
  }

  /** Only the first screenshot matters: later ones never change the
      field. */
  lemma PictureReadsFirstOnly(first: string, later: seq<string>)
    ensures Picture([first] + later) == Picture([first])
    ensures Picture([first]) == (if first == "" then None else Some(first))
  {
    assert ([first] + later)[0] == first;
  }

  // ---------------------------------------------------------------------------
  // Offer submission outcome
  // ---------------------------------------------------------------------------

  const OffersPage := "https://hdsky.me/offers.php"
  const OfferPage := "https://hdsky.me/offer.php?id="
  const OfferAdded := "候选已添加"
  const OfferSubmitted := "Offer submitted successfully"

  /** The test the adapter writes: either offer page, the "offer added"
      notice, or `offer` anywhere in the lower-cased URL. */
  predicate OfferSucceeded(url: string, text: string) {
    || StartsWith(url, OffersPage)
    || StartsWith(url, OfferPage)
    || Contains(text, OfferAdded)
    || Contains(Lower(url), "offer")
  }

  /** A URL that starts with a prefix holding `word` at `i`, a lower-case
      word, holds `word` once lower-cased. `word` and, further on, the offer
      page are parameters pinned by `requires` so that callers' proofs do
      not unfold the string functions over the literal. */
  lemma PrefixHoldsWord(url: string, prefix: string, word: string, i: nat)
    requires word == "offer"
    requires StartsWith(url, prefix)
    requires i + |word| <= |prefix| && prefix[i..i + |word|] == word
    ensures Contains(Lower(url), word)
  {
    forall k | 0 <= k < |word|
      ensures Lower(url)[i + k] == word[k]
    {
      assert url[i + k] == prefix[i + k] == word[k];
    }
    assert Lower(url)[i..][..|word|] == word;
    ContainsAt(Lower(url), word, i);
  }

  lemma OfferPagesHoldWord(url: string, a: string, b: string)
    requires a == OffersPage && b == OfferPage
    ensures StartsWith(url, a) ==> Contains(Lower(url), "offer")
    ensures StartsWith(url, b) ==> Contains(Lower(url), "offer")
  {
    assert a[17..22] == "offer";
    assert b[17..22] == "offer";
    if StartsWith(url, a) {
      PrefixHoldsWord(url, a, "offer", 17);
    }
    if StartsWith(url, b) {
      PrefixHoldsWord(url, b, "offer", 17);
    }
  }

  /** Both page prefixes already contain `offer`, so the test reduces to its
      last two disjuncts. */
  lemma OfferSuccessSimplified(url: string, text: string)
    ensures OfferSucceeded(url, text) <==> Contains(Lower(url), "offer") || Contains(text, OfferAdded)
  {
    OfferPagesHoldWord(url, OffersPage, OfferPage);
  }

  datatype Offer = OfferAccepted(message: string, offerId: Option<string>) | OfferRejected

  /** What the adapter records for the landing page: the URL and the offer
      id when the query carries one, a fixed message otherwise; a failure
      when the success test does not hold. */
  function OfferOutcome(url: string, text: string): (r: Offer)
    ensures r.OfferRejected? <==> !Contains(Lower(url), "offer") && !Contains(text, OfferAdded)
    ensures r.OfferAccepted? && r.offerId.Some? ==>
      && r.message == url
      && IsDigitString(r.offerId.value)
      && Contains(Query(url), "id=" + r.offerId.value)
      && FirstRun(Query(url), "id=", r.offerId.value)
    ensures r.OfferAccepted? && r.offerId.None? ==>
      && r.message == OfferSubmitted
      && forall j :: 0 <= j < |Query(url)| ==> !MatchAt(Query(url), "id=", j)
  {
    OfferSuccessSimplified(url, text);
    if !OfferSucceeded(url, text) then OfferRejected
    else match SearchDigits(Query(url), "id=") {
      case None => OfferAccepted(OfferSubmitted, None)
      case Some(id) => OfferAccepted(url, Some(id))
    }
  }

  /** Landing on `offer.php?id=<digits>` records that URL and those digits,
      whatever the page says. */
  lemma OfferPageRoundTrip(base: string, d: string, text: string)
    requires base == "https://hdsky.me/offer.php"
    requires IsDigitString(d)
    ensures OfferOutcome(base + "?id=" + d, text) == OfferAccepted(base + "?id=" + d, Some(d))
  {
    var url := base + "?id=" + d;
    assert url[..|OfferPage|] == OfferPage;
    assert forall k :: 0 <= k < |base| ==> base[k] != '?' && base[k] != '#';
    assert url == base + "?" + ("id=" + d);
    QueryOfComposed(base, "id=" + d);
    assert "id=" + d == "id=" + d + "";
    SearchDigitsAtStart("id=", d, "");
  }
}

=== FILE: hhan.dfy ===
/**
 The HHAN adapter: its category id, the `anon` field and the details-page
 redirect. The area id, the medium id, the subtitle flag, the release name
 and the scraped hash check come from `Shared`.
 */
module Hhan {
  import opened Text
  import opened Release
  import opened Urls

  /** `get_type_category_id`: each `if` overwrites the ones before it, so
      animation beats documentary, which beats the category. */
  function CategoryId(m: Meta): (r: string)
    ensures r == "403" <==> AnimationTagged(m)
    ensures r == "402" <==> !AnimationTagged(m) && DocumentaryTagged(m)
    ensures r == "404" <==> !AnimationTagged(m) && !DocumentaryTagged(m) && m.category == "TV"
    ensures r == "401" <==> !AnimationTagged(m) && !DocumentaryTagged(m) && m.category == "MOVIE"
    ensures r == "EXIT" <==>
      !AnimationTagged(m) && !DocumentaryTagged(m) && m.category != "TV" && m.category != "MOVIE"
  {
    var id := "EXIT";
    var id := if m.category == "MOVIE" then "401" else id;
    var id := if m.category == "TV" then "404" else id;
    var id := if DocumentaryTagged(m) then "402" else id;
    var id := if AnimationTagged(m) then "403" else id;
    id
  }

  /** An animated documentary is filed as animation. */
  lemma AnimatedDocumentary(m: Meta)
    requires AnimationTagged(m) && DocumentaryTagged(m)
    ensures CategoryId(m) == "403"
  {
  }

  /** The `anon` form field: `'no'` only when the release's `anon` is 0 and
      the tracker is not configured anonymous; an absent `anon` gives
      `'yes'`. */
  function Anon(anon: Option<int>, configAnon: bool): (r: string)
    ensures r == "no" <==> anon == Some(0) && !configAnon
    ensures r == "yes" <==> !(anon == Some(0) && !configAnon)
  {
    if anon == Some(0) && !configAnon then "no" else "yes"
  }

  const DetailsPage := "https://hhanclub.net/details.php"

  /** An accepted upload lands on `details.php?id=<digits>&uploaded=1`; the
      adapter reports the URL without the flag and the digits as the id.
      The page is a parameter pinned by `requires` so that the proof does not
      unfold the prefix test over the literal. */
  lemma UploadRoundTrip(base: string, d: string)
    requires base == DetailsPage
    requires IsDigitString(d)
    ensures RedirectOutcome(base + "?id=", base + "?id=" + d + UploadedFlag) == Accepted(base + "?id=" + d, d)
  {
    assert forall k :: 0 <= k < |base| ==> base[k] != '?' && base[k] != '#' && base[k] != '&';
    RedirectRoundTrip(base, d);
  }
}

=== FILE: ladder.dfy ===
/**
 First-match ladders as data. Several form fields are chosen by an
 `if … elif …` cascade of substring tests on one or two texts (a codec's
 format and its profile, a resolution); the first rung with a hit decides.
 A `Rung` lists the markers of one such test and the id it gives; the
 adapters' cascades are proved equal to `FirstRung` over their table, and
 the priority facts are proved once here.
 */
module Ladder {
  import opened Text

  /** A marker looked for in the main text (the codec format, the
      resolution) or in the extra text (the codec's format profile). */
  datatype Marker = InMain(text: string) | InExtra(text: string)

  datatype Rung<L> = Rung(markers: seq<Marker>, id: L)

  predicate MarkerHit(mk: Marker, main: string, extra: string) {
    match mk
    case InMain(t) => Contains(main, t)
    case InExtra(t) => Contains(extra, t)
  }

  /** Some marker of the list is found: the `or` of one `if` test. */
  predicate AnyHit(markers: seq<Marker>, main: string, extra: string)
    decreases |markers|
  {
    |markers| > 0 && (MarkerHit(markers[0], main, extra) || AnyHit(markers[1..], main, extra))
  }

  predicate RungHit<L>(r: Rung<L>, main: string, extra: string) {
    AnyHit(r.markers, main, extra)
  }

  /** A rung hits exactly when one of its markers is found. */
  lemma {:induction false} AnyHitExists(markers: seq<Marker>, main: string, extra: string)
    ensures AnyHit(markers, main, extra) <==>
      exists j :: 0 <= j < |markers| && MarkerHit(markers[j], main, extra)
    decreases |markers|
  {
    if |markers| > 0 {
      AnyHitExists(markers[1..], main, extra);
      if exists j :: 0 <= j < |markers| && MarkerHit(markers[j], main, extra) {
        var j :| 0 <= j < |markers| && MarkerHit(markers[j], main, extra);
        if j > 0 {
          assert markers[1..][j - 1] == markers[j];
        }
      }
      if AnyHit(markers[1..], main, extra) {
        var j :| 0 <= j < |markers| - 1 && MarkerHit(markers[1..][j], main, extra);
        assert markers[j + 1] == markers[1..][j];
      }
    }
  }

  /** The index of the first rung, at or after `from`, that hits. */
  function FirstHitFrom<L>(ladder: seq<Rung<L>>, from: nat, main: string, extra: string): (r: Option<nat>)
    ensures r.Some? ==>
      && from <= r.value < |ladder|
      && RungHit(ladder[r.value], main, extra)
      && (forall j :: from <= j < r.value ==> !RungHit(ladder[j], main, extra))
    ensures r.None? ==> forall j :: from <= j < |ladder| ==> !RungHit(ladder[j], main, extra)
    decreases |ladder| - from
  {
    if from >= |ladder| then None
    else if RungHit(ladder[from], main, extra) then Some(from)
    else FirstHitFrom(ladder, from + 1, main, extra)
  }

  function FirstHit<L>(ladder: seq<Rung<L>>, main: string, extra: string): (r: Option<nat>)
    ensures r.Some? ==>
      && r.value < |ladder|
      && RungHit(ladder[r.value], main, extra)
      && (forall j :: 0 <= j < r.value ==> !RungHit(ladder[j], main, extra))
    ensures r.None? <==> forall j :: 0 <= j < |ladder| ==> !RungHit(ladder[j], main, extra)
  {
    FirstHitFrom(ladder, 0, main, extra)
  }

  /** The id of the first rung that hits; `None` when no rung does. */
  function FirstRung<L>(ladder: seq<Rung<L>>, main: string, extra: string): (r: Option<L>)
    ensures r.None? <==> forall j :: 0 <= j < |ladder| ==> !RungHit(ladder[j], main, extra)
    ensures r.Some? ==> exists j :: 0 <= j < |ladder| && RungHit(ladder[j], main, extra) && r.value == ladder[j].id
  {
    match FirstHit(ladder, main, extra)
    case None => None
    case Some(i) => Some(ladder[i].id)
  }

  /** Priority: the first rung that hits decides, whatever later rungs say. */
  lemma FirstRungAt<L>(ladder: seq<Rung<L>>, i: nat, main: string, extra: string)
    requires i < |ladder| && RungHit(ladder[i], main, extra)
    requires forall j :: 0 <= j < i ==> !RungHit(ladder[j], main, extra)
    ensures FirstRung(ladder, main, extra) == Some(ladder[i].id)
  {
    var h := FirstHit(ladder, main, extra);
    assert h.Some?;
    assert h.value == i;
  }

  /** A rung that hits shadows every later rung: the answer comes from it or
      from a rung before it. */
  lemma FirstRungNotAfter<L>(ladder: seq<Rung<L>>, i: nat, main: string, extra: string)
    requires i < |ladder| && RungHit(ladder[i], main, extra)
    ensures FirstRung(ladder, main, extra).Some?
    ensures exists j :: 0 <= j <= i && FirstRung(ladder, main, extra) == Some(ladder[j].id)
  {
    var h := FirstHit(ladder, main, extra);
    assert h.Some? && h.value <= i;
  }

  /** With pairwise distinct ids, an answer names the rung that produced it:
      that rung hits and no earlier one does. */
  lemma FirstRungExplains<L>(ladder: seq<Rung<L>>, i: nat, main: string, extra: string)
    requires i < |ladder|
    requires forall j, k :: 0 <= j < k < |ladder| ==> ladder[j].id != ladder[k].id
    requires FirstRung(ladder, main, extra) == Some(ladder[i].id)
    ensures RungHit(ladder[i], main, extra)
    ensures forall j :: 0 <= j < i ==> !RungHit(ladder[j], main, extra)
  {
    var h := FirstHit(ladder, main, extra);
    assert h.Some?;
    assert ladder[h.value].id == ladder[i].id;
    assert h.value == i;
  }

  predicate SameMarkers<L, M>(a: seq<Rung<L>>, b: seq<Rung<M>>, n: nat) {
    n <= |a| && n <= |b| && forall j :: 0 <= j < n ==> a[j].markers == b[j].markers
  }

  /** Two ladders whose first `n` rungs test the same markers pick the same
      rung whenever one of those `n` rungs hits. */
  lemma SharedRungs<L, M>(a: seq<Rung<L>>, b: seq<Rung<M>>, n: nat, main: string, extra: string)
    requires SameMarkers(a, b, n)
    ensures var ha := FirstHit(a, main, extra); var hb := FirstHit(b, main, extra);
      (ha.Some? && ha.value < n) <==> (hb.Some? && hb.value < n)
    ensures var ha := FirstHit(a, main, extra); var hb := FirstHit(b, main, extra);
      ha.Some? && ha.value < n ==> hb == ha
  {
    var ha := FirstHit(a, main, extra);
    var hb := FirstHit(b, main, extra);
    if ha.Some? && ha.value < n {
      assert RungHit(b[ha.value], main, extra);
      assert hb.Some? && hb.value <= ha.value;
      assert RungHit(a[hb.value], main, extra);
    }
    if hb.Some? && hb.value < n {
      assert RungHit(a[hb.value], main, extra);
      assert ha.Some? && ha.value <= hb.value;
    }
  }

  /** With pairwise distinct ids, the answer's rung is the first hit. */
  lemma FirstRungIndex<L>(ladder: seq<Rung<L>>, i: nat, main: string, extra: string)
    requires i < |ladder|
    requires forall j, k :: 0 <= j < k < |ladder| ==> ladder[j].id != ladder[k].id
    requires FirstRung(ladder, main, extra) == Some(ladder[i].id)
    ensures FirstHit(ladder, main, extra) == Some(i)
  {
    FirstRungExplains(ladder, i, main, extra);
  }

  /** A ladder that repeats the first `n` rungs of another with other ids
      answers with its own id for the same rung. */
  lemma RelabelledAt<L, M>(a: seq<Rung<L>>, b: seq<Rung<M>>, n: nat, i: nat, main: string, extra: string)
    requires SameMarkers(a, b, n) && i < n
    requires FirstHit(a, main, extra) == Some(i)
    ensures FirstRung(b, main, extra) == Some(b[i].id)
  {
    SharedRungs(a, b, n, main, extra);
  }

  /** When no rung of `a` hits and `b` starts with all of `a`'s rungs, the
      answer of `b`, if any, comes from a rung past them. */
  lemma RelabelledMiss<L, M>(a: seq<Rung<L>>, b: seq<Rung<M>>, main: string, extra: string)
    requires SameMarkers(a, b, |a|)
    requires FirstHit(a, main, extra).None?
    ensures FirstHit(b, main, extra).None? || FirstHit(b, main, extra).value >= |a|
  {
    SharedRungs(a, b, |a|, main, extra);
  }

  /** `b` repeats every rung of `a` under other ids: where `a` answers with
      the id of rung `h`, `b`'s cascade answers with its own id for rung
      `h`; where `a` finds nothing and `b` has no further rungs, `b` falls
      back. */
  lemma RelabelledOr<L, M>(a: seq<Rung<L>>, b: seq<Rung<M>>, main: string, extra: string, fallback: M)
    requires SameMarkers(a, b, |a|)
    ensures FirstHit(a, main, extra).Some? ==>
      var h := FirstHit(a, main, extra).value;
      FirstRung(a, main, extra) == Some(a[h].id) && FirstRungOr(b, main, extra, fallback) == b[h].id
    ensures FirstHit(a, main, extra).None? && |b| == |a| ==> FirstRungOr(b, main, extra, fallback) == fallback
  {
    SharedRungs(a, b, |a|, main, extra);
  }

  /** The id of the first rung that hits, or `fallback` (the `else` branch). */
  function FirstRungOr<L>(ladder: seq<Rung<L>>, main: string, extra: string, fallback: L): (r: L)
    ensures (forall j :: 0 <= j < |ladder| ==> !RungHit(ladder[j], main, extra)) ==> r == fallback
    ensures (exists j :: 0 <= j < |ladder| && RungHit(ladder[j], main, extra)) ==>
      exists j :: 0 <= j < |ladder| && RungHit(ladder[j], main, extra) && r == ladder[j].id
  {
    match FirstRung(ladder, main, extra)
    case None => fallback
    case Some(id) => id
  }
}

=== FILE: mteam.dfy ===
/**
 The M-Team adapter: the form fields of its upload request, computed from
 the release record.
 */
module MTeam {
  import opened Text
  import opened Replace
  import opened Ladder
  import opened Release
  import opened Urls
  import opened Shared

  // ---------------------------------------------------------------------------
  // Category
  // ---------------------------------------------------------------------------

  const CategoryIds: set<string> :=
    {"421", "420", "439", "419", "401", "438", "435", "402", "403", "404", "405", "407", "409"}

  /** The resolutions the site files under "HD", compared for equality. */
  const HdResolutions: set<string> := {"1080p", "720p", "2160p", "4k"}

  predicate SportTagged(m: Meta) {
    Contains(GenresLower(m), "sport") || Contains(GenresLower(m), "sports")
  }

  /** The movie and series categories by disc kind, type and resolution;
      the series branch is written twice in the adapter, once for variety
      shows and once for the rest, with the same outcome. */
  function CategoryId(m: Meta): (r: string)
    ensures r in CategoryIds
    ensures m.category == "MOVIE" ==>
      && (r == "421" <==> m.isDisc == "BDMV")
      && (r == "420" <==> m.isDisc == "DVD")
      && (r == "439" <==> m.isDisc != "BDMV" && m.isDisc != "DVD" && m.mediaType == "REMUX")
      && (r == "419" <==>
            m.isDisc != "BDMV" && m.isDisc != "DVD" && m.mediaType != "REMUX" && Lower(m.resolution) in HdResolutions)
      && (r == "401" <==>
            m.isDisc != "BDMV" && m.isDisc != "DVD" && m.mediaType != "REMUX" && Lower(m.resolution) !in HdResolutions)
    ensures m.category == "TV" ==>
      && (m.isDisc == "BDMV" <==> r == "438")
      && (m.isDisc == "DVD" <==> r == "435")
      && (r == "402" <==> m.isDisc != "BDMV" && m.isDisc != "DVD" && Lower(m.resolution) in HdResolutions)
      && (r == "403" <==> m.isDisc != "BDMV" && m.isDisc != "DVD" && Lower(m.resolution) !in HdResolutions)
    ensures m.category != "MOVIE" && m.category != "TV" ==>
      && (r == "404" <==> DocumentaryTagged(m))
      && (r == "405" <==> !DocumentaryTagged(m) && (AnimationTagged(m) || m.anime))
      && (r == "407" <==> !DocumentaryTagged(m) && !(AnimationTagged(m) || m.anime) && SportTagged(m))
      && (r == "407" ==> Contains(GenresLower(m), "sport"))
      && (r == "409" <==> !DocumentaryTagged(m) && !(AnimationTagged(m) || m.anime) && !SportTagged(m))
  {
    var resolution := Lower(m.resolution);
    if m.category == "MOVIE" then
      if m.isDisc == "BDMV" then "421"
      else if m.isDisc == "DVD" then "420"
      else if m.mediaType == "REMUX" then "439"
      else if resolution in HdResolutions then "419"
      else "401"
    else if m.category == "TV" then
      if VarietyTagged(m) then
        if m.isDisc == "BDMV" then "438"
        else if m.isDisc == "DVD" then "435"
        else if resolution in HdResolutions then "402"
        else "403"
      else
        if m.isDisc == "BDMV" then "438"
        else if m.isDisc == "DVD" then "435"
        else if resolution in HdResolutions then "402"
        else "403"
    else if DocumentaryTagged(m) then "404"
    else if AnimationTagged(m) || m.anime then "405"
    else if SportTagged(m) then
      SportsTestRedundant(GenresLower(m));
      "407"
    else "409"
  }

  /** The `'sports'` test adds nothing: every text holding `sports` holds `sport`. */
  lemma SportsTestRedundant(genres: string)
    ensures (Contains(genres, "sport") || Contains(genres, "sports")) <==> Contains(genres, "sport")
  {
    if Contains(genres, "sports") {
      ContainsLiteral(genres, "sports", "sport");
    }
  }

  /** A series' category depends on disc kind and resolution only: genres,
      keywords and the anime flag play no part. */
  lemma TvIgnoresGenres(m: Meta, genres: Tags, keywords: Tags, anime: bool)
    requires m.category == "TV"
    ensures CategoryId(m) == CategoryId(m.(genres := genres, keywords := keywords, anime := anime))
  {
  }

  // ---------------------------------------------------------------------------
  // Standard, video codec, audio codec: first-match ladders
  // ---------------------------------------------------------------------------

  const StandardLadder: seq<Rung<string>> := [
    Rung([InMain("8k"), InMain("7680")], "8K"),
    Rung([InMain("4k"), InMain("2160p"), InMain("2160i")], "4K"),
    Rung([InMain("1080p")], "1080p"),
    Rung([InMain("1080i")], "1080i"),
    Rung([InMain("720p"), InMain("720i")], "720p"),
    Rung([InMain("480p"), InMain("480i"), InMain("576p"), InMain("576i")], "SD")
  ]

  /** The resolution ladder on the lower-cased resolution; `None` when no
      marker is found. */
  function StandardId(m: Meta): (r: Option<string>)
    ensures r == FirstRung(StandardLadder, Lower(m.resolution), "")
  {
    StandardOf(Lower(m.resolution))
  }

  function StandardOf(res: string): (r: Option<string>)
    ensures r == FirstRung(StandardLadder, res, "")
  {
    StandardRungs(res);
    if Contains(res, "8k") || Contains(res, "7680") then Some("8K")
    else if Contains(res, "4k") || Contains(res, "2160p") || Contains(res, "2160i") then Some("4K")
    else if Contains(res, "1080p") then Some("1080p")
    else if Contains(res, "1080i") then Some("1080i")
    else if Contains(res, "720p") || Contains(res, "720i") then Some("720p")
    else if Contains(res, "480p") || Contains(res, "480i") || Contains(res, "576p") || Contains(res, "576i") then Some("SD")
    else None
  }

  lemma StandardRungs(res: string)
    ensures RungHit(StandardLadder[0], res, "") <==> Contains(res, "8k") || Contains(res, "7680")
    ensures RungHit(StandardLadder[1], res, "") <==> Contains(res, "4k") || Contains(res, "2160p") || Contains(res, "2160i")
    ensures RungHit(StandardLadder[2], res, "") <==> Contains(res, "1080p")
    ensures RungHit(StandardLadder[3], res, "") <==> Contains(res, "1080i")
    ensures RungHit(StandardLadder[4], res, "") <==> Contains(res, "720p") || Contains(res, "720i")
    ensures RungHit(StandardLadder[5], res, "") <==>
      Contains(res, "480p") || Contains(res, "480i") || Contains(res, "576p") || Contains(res, "576i")
  {
  }

  const VideoLadder: seq<Rung<string>> := [
    Rung([InMain("HEVC"), InMain("H.265"), InMain("X265")], "H.265"),
    Rung([InMain("AVC"), InMain("H.264"), InMain("X264")], "H.264"),
    Rung([InMain("VC-1")], "VC-1"),
    Rung([InMain("MPEG-2"), InMain("MPEG2")], "MPEG-2"),
    Rung([InMain("AV1")], "AV1")
  ]

  /** The video codec ladder on the upper-cased format of the first Video
      track; `None` without a Video track or with an unrecognised format. */
  function VideoCodecId(m: Meta): (r: Option<string>)
    ensures FirstOfKind(m.tracks, "Video").None? ==> r.None?
    ensures FirstOfKind(m.tracks, "Video").Some? ==>
      r == FirstRung(VideoLadder, Upper(FirstOfKind(m.tracks, "Video").value.format), "")
  {
    match FirstOfKind(m.tracks, "Video")
    case None => None
    case Some(track) => VideoCodecOf(Upper(track.format))
  }

  function VideoCodecOf(codec: string): (r: Option<string>)
    ensures r == FirstRung(VideoLadder, codec, "")
  {
    VideoRungs(codec);
    if Contains(codec, "HEVC") || Contains(codec, "H.265") || Contains(codec, "X265") then Some("H.265")
    else if Contains(codec, "AVC") || Contains(codec, "H.264") || Contains(codec, "X264") then Some("H.264")
    else if Contains(codec, "VC-1") then Some("VC-1")
    else if Contains(codec, "MPEG-2") || Contains(codec, "MPEG2") then Some("MPEG-2")
    else if Contains(codec, "AV1") then Some("AV1")
    else None
  }

  lemma VideoRungs(codec: string)
    ensures RungHit(VideoLadder[0], codec, "") <==> Contains(codec, "HEVC") || Contains(codec, "H.265") || Contains(codec, "X265")
    ensures RungHit(VideoLadder[1], codec, "") <==> Contains(codec, "AVC") || Contains(codec, "H.264") || Contains(codec, "X264")
    ensures RungHit(VideoLadder[2], codec, "") <==> Contains(codec, "VC-1")
    ensures RungHit(VideoLadder[3], codec, "") <==> Contains(codec, "MPEG-2") || Contains(codec, "MPEG2")
    ensures RungHit(VideoLadder[4], codec, "") <==> Contains(codec, "AV1")
  {
  }

  /** The main text is the upper-cased format, the extra text the
      upper-cased format profile. */
  const AudioLadder: seq<Rung<string>> := [
    Rung([InExtra("DTS:X"), InExtra("DTSX")], "DTS:X"),
    Rung([InExtra("ATMOS"), InMain("TRUEHD ATMOS")], "TrueHD Atmos"),
    Rung([InMain("DTS-HD"), InMain("DTSHD")], "DTS-HD MA"),
    Rung([InMain("TRUEHD")], "TrueHD"),
    Rung([InMain("LPCM"), InMain("PCM")], "LPCM"),
    Rung([InMain("DTS")], "DTS"),
    Rung([InMain("AC3"), InMain("DD"), InMain("DOLBY DIGITAL")], "AC3"),
    Rung([InMain("OPUS")], "OPUS"),
    Rung([InMain("AAC")], "AAC"),
    Rung([InMain("FLAC")], "FLAC")
  ]

  /** The audio codec ladder on the first Audio track only. */
  function AudioCodecId(m: Meta): (r: Option<string>)
    ensures FirstOfKind(m.tracks, "Audio").None? ==> r.None?
    ensures FirstOfKind(m.tracks, "Audio").Some? ==>
      var track := FirstOfKind(m.tracks, "Audio").value;
      r == FirstRung(AudioLadder, Upper(track.format), Upper(track.profile))
  {
    match FirstOfKind(m.tracks, "Audio")
    case None => None
    case Some(track) => AudioCodecOf(Upper(track.format), Upper(track.profile))
  }

  function AudioCodecOf(codec: string, profile: string): (r: Option<string>)
    ensures r == FirstRung(AudioLadder, codec, profile)
  {
    AudioRungs(codec, profile);
    if Contains(profile, "DTS:X") || Contains(profile, "DTSX") then Some("DTS:X")
    else if Contains(profile, "ATMOS") || Contains(codec, "TRUEHD ATMOS") then Some("TrueHD Atmos")
    else if Contains(codec, "DTS-HD") || Contains(codec, "DTSHD") then Some("DTS-HD MA")
    else if Contains(codec, "TRUEHD") then Some("TrueHD")
    else if Contains(codec, "LPCM") || Contains(codec, "PCM") then Some("LPCM")
    else if Contains(codec, "DTS") then Some("DTS")
    else if Contains(codec, "AC3") || Contains(codec, "DD") || Contains(codec, "DOLBY DIGITAL") then Some("AC3")
    else if Contains(codec, "OPUS") then Some("OPUS")
    else if Contains(codec, "AAC") then Some("AAC")
    else if Contains(codec, "FLAC") then Some("FLAC")
    else None
  }

  lemma AudioRungs(codec: string, profile: string)
    ensures RungHit(AudioLadder[0], codec, profile) <==> Contains(profile, "DTS:X") || Contains(profile, "DTSX")
    ensures RungHit(AudioLadder[1], codec, profile) <==> Contains(profile, "ATMOS") || Contains(codec, "TRUEHD ATMOS")
    ensures RungHit(AudioLadder[2], codec, profile) <==> Contains(codec, "DTS-HD") || Contains(codec, "DTSHD")
    ensures RungHit(AudioLadder[3], codec, profile) <==> Contains(codec, "TRUEHD")
    ensures RungHit(AudioLadder[4], codec, profile) <==> Contains(codec, "LPCM") || Contains(codec, "PCM")
    ensures RungHit(AudioLadder[5], codec, profile) <==> Contains(codec, "DTS")
    ensures RungHit(AudioLadder[6], codec, profile) <==> Contains(codec, "AC3") || Contains(codec, "DD") || Contains(codec, "DOLBY DIGITAL")
    ensures RungHit(AudioLadder[7], codec, profile) <==> Contains(codec, "OPUS")
    ensures RungHit(AudioLadder[8], codec, profile) <==> Contains(codec, "AAC")
    ensures RungHit(AudioLadder[9], codec, profile) <==> Contains(codec, "FLAC")
  {
  }

  /** A DTS-HD format is never filed as plain DTS: the DTS-HD rung sits
      above the DTS rung and shadows it. */
  lemma DtsHdNeverPlainDts(m: Meta)
    requires FirstOfKind(m.tracks, "Audio").Some?
    requires Contains(Upper(FirstOfKind(m.tracks, "Audio").value.format), "DTS-HD")
    ensures AudioCodecId(m).Some?
    ensures AudioCodecId(m).value in {"DTS:X", "TrueHD Atmos", "DTS-HD MA"}
  {
    var track := FirstOfKind(m.tracks, "Audio").value;
    var codec := Upper(track.format);
    var profile := Upper(track.profile);
    assert RungHit(AudioLadder[2], codec, profile);
    FirstRungNotAfter(AudioLadder, 2, codec, profile);
  }

  /** The ids of each ladder are pairwise distinct, so an answer names its rung. */
  lemma LadderIdsDistinct()
    ensures forall j, k :: 0 <= j < k < |StandardLadder| ==> StandardLadder[j].id != StandardLadder[k].id
    ensures forall j, k :: 0 <= j < k < |VideoLadder| ==> VideoLadder[j].id != VideoLadder[k].id
    ensures forall j, k :: 0 <= j < k < |AudioLadder| ==> AudioLadder[j].id != AudioLadder[k].id
  {
  }

  /** Priority on the audio ladder: an answer means its own rung matched and
      every rung above it failed. */
  lemma AudioCodecExplained(m: Meta, i: nat)
    requires i < |AudioLadder|
    requires AudioCodecId(m) == Some(AudioLadder[i].id)
    ensures FirstOfKind(m.tracks, "Audio").Some?
    ensures var track := FirstOfKind(m.tracks, "Audio").value;
      && RungHit(AudioLadder[i], Upper(track.format), Upper(track.profile))
      && forall j :: 0 <= j < i ==> !RungHit(AudioLadder[j], Upper(track.format), Upper(track.profile))
  {
    LadderIdsDistinct();
    var track := FirstOfKind(m.tracks, "Audio").value;
    FirstRungExplains(AudioLadder, i, Upper(track.format), Upper(track.profile));
  }

  /** Priority on the resolution ladder, likewise. */
  lemma StandardExplained(m: Meta, i: nat)
    requires i < |StandardLadder|
    requires StandardId(m) == Some(StandardLadder[i].id)
    ensures RungHit(StandardLadder[i], Lower(m.resolution), "")
    ensures forall j :: 0 <= j < i ==> !RungHit(StandardLadder[j], Lower(m.resolution), "")
  {
    LadderIdsDistinct();
    FirstRungExplains(StandardLadder, i, Lower(m.resolution), "");
  }

  // ---------------------------------------------------------------------------
  // Countries
  // ---------------------------------------------------------------------------

  const CountryMap: map<string, string> := map[
    "中国大陆" := "CN", "中国香港" := "HK", "中国台湾" := "TW", "美国" := "US",
    "日本" := "JP", "韩国" := "KR", "英国" := "GB", "法国" := "FR",
    "德国" := "DE", "意大利" := "IT", "西班牙" := "ES", "印度" := "IN"]

  predicate MapsTo(region: string, code: string) {
    region in CountryMap && CountryMap[region] == code
  }

  /** Every code comes from a region (among the first `n`) that appears
      before every region giving a later code. */
  predicate FirstRegionOrder(countries: seq<string>, regions: seq<string>, n: nat) {
    forall i, j, k :: 0 <= i < j < |countries| && 0 <= k < n && k < |regions| && MapsTo(regions[k], countries[j]) ==>
      exists k' :: 0 <= k' < k && MapsTo(regions[k'], countries[i])
  }

  /** The country codes of the PtGen regions, each once, in the order their
      first region appears; unmapped regions are dropped. */
  method Countries(regions: seq<string>) returns (countries: seq<string>)
    ensures forall i, j :: 0 <= i < j < |countries| ==> countries[i] != countries[j]
    ensures forall c :: c in countries <==> exists k :: 0 <= k < |regions| && MapsTo(regions[k], c)
    ensures FirstRegionOrder(countries, regions, |regions|)
  {
    countries := [];
    var n := 0;
    while n < |regions|
      invariant 0 <= n <= |regions|
      invariant forall i, j :: 0 <= i < j < |countries| ==> countries[i] != countries[j]
      invariant forall c :: c in countries <==> exists k :: 0 <= k < n && MapsTo(regions[k], c)
      invariant FirstRegionOrder(countries, regions, n)
    {
      var region := regions[n];
      var prev := countries;
      if region in CountryMap && CountryMap[region] !in countries {
        var code := CountryMap[region];
        countries := countries + [code];
        forall i, j, k | 0 <= i < j < |countries| && 0 <= k < n + 1 && k < |regions| && MapsTo(regions[k], countries[j])
          ensures exists k' :: 0 <= k' < k && MapsTo(regions[k'], countries[i])
        {
          assert countries[i] == prev[i];
          if j == |prev| {
            assert k == n;
            assert prev[i] in prev;
            var k' :| 0 <= k' < n && MapsTo(regions[k'], prev[i]);
          } else {
            assert countries[j] == prev[j];
            assert k < n;
          }
        }
      } else {
        forall i, j, k | 0 <= i < j < |countries| && 0 <= k < n + 1 && k < |regions| && MapsTo(regions[k], countries[j])
          ensures exists k' :: 0 <= k' < k && MapsTo(regions[k'], countries[i])
        {
          if k == n {
            assert countries[i] in prev;
            var k' :| 0 <= k' < n && MapsTo(regions[k'], countries[i]);
            assert k' < k;
          } else {
            assert k < n;
          }
        }
      }
      n := n + 1;
    }
  }

  // ---------------------------------------------------------------------------
  // Labels
  // ---------------------------------------------------------------------------

  /** `中字` when there is Chinese subtitle evidence, then `中配` when some
      Audio track is in `zh` or `chi`. */
  function Labels(m: Meta): (labels: seq<string>)
    ensures |labels| <= 2
    ensures "中字" in labels <==> ChineseSubtitles(m)
    ensures "中配" in labels <==> HasTrack(m.tracks, "Audio", {"zh", "chi"})
    ensures forall i :: 0 <= i < |labels| ==> labels[i] in {"中字", "中配"}
    ensures |labels| == 2 ==> labels[0] == "中字" && labels[1] == "中配"
  {
    var subtitled :=
      if m.isDisc != "BDMV" then ScanTracks(m.tracks, "Text", {"zh"})
      else ScanSubtitles(m.bdSubtitles, "Chinese");
    var dubbed := ScanTracks(m.tracks, "Audio", {"zh", "chi"});
    (if subtitled then ["中字"] else []) + (if dubbed then ["中配"] else [])
  }

  // ---------------------------------------------------------------------------
  // Short description
  // ---------------------------------------------------------------------------

  /** `title_ + ' / '` for every PtGen translated title, concatenated. */
  function TitleRun(titles: seq<string>): (r: string)
    ensures |titles| == 0 ==> r == ""
    decreases |titles|
  {
    if |titles| == 0 then "" else titles[0] + " / " + TitleRun(titles[1..])
  }

  const GenreLabel := "| 类别:"

  /** The `smallDescr` field: with translated titles, each followed by
      `' / '`, then `| 类别:` and the first PtGen genre, and every `/ |`
      turned into `|`; with the list `['']`, the release title. */
  function SmallDescr(transTitles: seq<string>, ptgenGenres: seq<string>, title: string): (r: string)
    ensures transTitles == [""] ==> r == title
  {
    if transTitles != [""] then
      var genre := if |ptgenGenres| > 0 then ptgenGenres[0] else "";
      ReplaceAll(TitleRun(transTitles) + (GenreLabel + genre), "/ |", "|")
    else title
  }

  predicate Plain(t: string) {
    forall k :: 0 <= k < |t| ==> t[k] != '/' && t[k] != '|'
  }

  /** What follows the title run: the genre label, which opens with `|`. */
  predicate LabelTail(tail: string) {
    |tail| > 0 && tail[0] == '|'
  }

  // The lemmas below take the pattern, the replacement and the separator as
  // parameters pinned by `requires`, which keeps the solver from unfolding
  // the replacement over literal arguments.

  /** The `/ |` that ends the title run folds into the genre label. */
  lemma {:induction false} SlashAbsorbed(tail: string, pat: string, rep: string)
    requires pat == "/ |" && rep == "|"
    requires LabelTail(tail)
    ensures ReplaceAll("/ " + tail, pat, rep) == ReplaceAll(tail, pat, rep)
  {
    var after := tail[1..];
    assert "/ " + tail == pat + after;
    ReplaceOccurrenceFirst(pat, after, rep);
    ReplaceCopiesHead(tail, pat, rep);
    assert [tail[0]] == rep;
  }

  /** A `/ ` not followed by `|` is copied through. */
  lemma {:induction false} SlashKept(x: string, pat: string, rep: string)
    requires pat == "/ |" && rep == "|"
    requires |x| > 0 && x[0] != '|'
    ensures ReplaceAll("/ " + x, pat, rep) == "/ " + ReplaceAll(x, pat, rep)
  {
    var lead := "/ ";
    var w := lead + x;
    assert w[2] == x[0];
    assert |pat| <= |w| ==> w[..|pat|][2] != pat[2];
    assert !StartsWith(w, pat);
    assert ReplaceAll(w, pat, rep) == [w[0]] + ReplaceAll(w[1..], pat, rep);
    assert w[0] == lead[0] && w[1..] == lead[1..] + x;
    ReplaceSkip(lead[1..], x, pat, rep);
    ConsSplit(lead, ReplaceAll(x, pat, rep));
  }

  /** A title and the space after it hold no `/` and are copied through. */
  lemma {:induction false} LeadCopied(t: string, y: string, pat: string, rep: string)
    requires pat == "/ |" && Plain(t)
    ensures ReplaceAll((t + " ") + y, pat, rep) == (t + " ") + ReplaceAll(y, pat, rep)
  {
    var lead := t + " ";
    forall k | 0 <= k < |lead|
      ensures lead[k] != pat[0]
    {
      if k < |t| {
        assert lead[k] == t[k];
      }
    }
    ReplaceSkip(lead, y, pat, rep);
  }

  /** `(t + ' ') + ('/ ' + x) == t + ' / ' + x`, with the pieces as parameters. */
  lemma Regroup(t: string, x: string, sep: string, a: string, b: string)
    requires sep == a + b
    ensures t + sep + x == (t + a) + (b + x)
  {
  }

  lemma {:induction false} TitleRunSplit(titles: seq<string>, tail: string, sep: string, a: string, b: string)
    requires |titles| > 0
    requires sep == " / " && a == " " && b == "/ "
    ensures TitleRun(titles) + tail == (titles[0] + a) + (b + (TitleRun(titles[1..]) + tail))
  {
    var y := TitleRun(titles[1..]);
    assert TitleRun(titles) == titles[0] + sep + y;
    assert TitleRun(titles) + tail == titles[0] + sep + (y + tail);
    Regroup(titles[0], y + tail, sep, a, b);
  }

  lemma {:induction false} JoinStep(titles: seq<string>, tail: string, sep: string, a: string, b: string)
    requires |titles| > 1
    requires sep == a + b
    ensures (titles[0] + a) + (b + (Join(sep, titles[1..]) + a + tail)) == Join(sep, titles) + a + tail
  {
    var j := Join(sep, titles[1..]);
    assert Join(sep, titles) == titles[0] + sep + j;
    Regroup(titles[0], j + a + tail, sep, a, b);
  }

  lemma {:induction false} TitleRunHead(titles: seq<string>, tail: string)
    requires |titles| > 0 && Plain(titles[0])
    ensures |TitleRun(titles) + tail| > 0 && (TitleRun(titles) + tail)[0] != '|'
  {
    var x := TitleRun(titles) + tail;
    assert x == titles[0] + (" / " + TitleRun(titles[1..]) + tail);
    if |titles[0]| > 0 {
      assert x[0] == titles[0][0];
    } else {
      assert x[0] == ' ';
    }
  }

  /** The replacement over the title run and the label: every ` / ` between
      titles stays, the last one merges with the label's `|`. */
  lemma {:induction false} TitleRunReplaced(titles: seq<string>, tail: string, pat: string, rep: string, sep: string, a: string, b: string)
    requires pat == "/ |" && rep == "|" && sep == " / " && a == " " && b == "/ "
    requires |titles| > 0
    requires forall i :: 0 <= i < |titles| ==> Plain(titles[i])
    requires LabelTail(tail)
    ensures ReplaceAll(TitleRun(titles) + tail, pat, rep) == Join(sep, titles) + a + ReplaceAll(tail, pat, rep)
    decreases |titles|
  {
    var rest := titles[1..];
    var x := TitleRun(rest) + tail;
    TitleRunSplit(titles, tail, sep, a, b);
    LeadCopied(titles[0], b + x, pat, rep);
    if |rest| == 0 {
      assert x == tail;
      SlashAbsorbed(tail, pat, rep);
      assert Join(sep, titles) == titles[0];
    } else {
      assert Plain(rest[0]);
      TitleRunReplaced(rest, tail, pat, rep, sep, a, b);
      TitleRunHead(rest, tail);
      SlashKept(x, pat, rep);
      JoinStep(titles, ReplaceAll(tail, pat, rep), sep, a, b);
    }
  }

  /** The label holds no `/`, so the replacement copies it and works on the
      genre alone. */
  lemma LabelCopied(genre: string, tag: string, pat: string, rep: string)
    requires tag == GenreLabel && pat == "/ |" && rep == "|"
    ensures LabelTail(tag + genre)
    ensures ReplaceAll(tag + genre, pat, rep) == tag + ReplaceAll(genre, pat, rep)
  {
    assert forall k :: 0 <= k < |tag| ==> tag[k] != pat[0];
    ReplaceSkip(tag, genre, pat, rep);
  }

  /** A text without `/` holds no `/ |` and is copied through. */
  lemma FreeOfSlashCopied(g: string, pat: string, rep: string)
    requires pat == "/ |"
    ensures (forall k :: 0 <= k < |g| ==> g[k] != '/') ==> ReplaceAll(g, pat, rep) == g
  {
    if forall k :: 0 <= k < |g| ==> g[k] != '/' {
      ReplaceSkip(g, "", pat, rep);
      assert g + "" == g;
    }
  }

  /** With translated titles free of `/` and `|`, the field is the titles
      joined by `' / '` (each run followed by a space), then `| 类别:` and
      the first genre with its own `/ |` turned into `|`; a genre without
      `/` is kept as it is. With no titles at all, the label and genre alone. */
  lemma SmallDescrJoinsTitles(transTitles: seq<string>, ptgenGenres: seq<string>, title: string)
    requires transTitles != [""]
    requires forall i :: 0 <= i < |transTitles| ==> Plain(transTitles[i])
    ensures var genre := if |ptgenGenres| > 0 then ptgenGenres[0] else "";
      var lead := if |transTitles| == 0 then "" else Join(" / ", transTitles) + " ";
      && SmallDescr(transTitles, ptgenGenres, title) == lead + (GenreLabel + ReplaceAll(genre, "/ |", "|"))
      && ((forall k :: 0 <= k < |genre| ==> genre[k] != '/') ==>
            SmallDescr(transTitles, ptgenGenres, title) == lead + (GenreLabel + genre))
  {
    var genre := if |ptgenGenres| > 0 then ptgenGenres[0] else "";
    LabelCopied(genre, GenreLabel, "/ |", "|");
    FreeOfSlashCopied(genre, "/ |", "|");
    if |transTitles| == 0 {
      assert TitleRun(transTitles) + (GenreLabel + genre) == GenreLabel + genre;
    } else {
      TitleRunReplaced(transTitles, GenreLabel + genre, "/ |", "|", " / ", " ", "/ ");
    }
  }

  // ---------------------------------------------------------------------------
  // Douban link and anonymity
  // ---------------------------------------------------------------------------

  /** The `douban` field from the PtGen `douban` value: a link is used as it
      is, a bare id becomes the subject page, anything else adds no field. */
  function DoubanField(v: Json): (r: Option<string>)
    ensures r.Some? <==> v.JStr? && (StartsWith(v.s, "http") || IsDigitString(v.s))
    ensures r.Some? && StartsWith(v.s, "http") ==> r.value == v.s
    ensures r.Some? && !StartsWith(v.s, "http") ==> r.value == DoubanSubject + v.s + "/"
  {
    if !Truthy(v) then None
    else match v {
      case JStr(s) =>
        if StartsWith(s, "http") then Some(s)
        else if IsDigitString(s) then Some(DoubanSubject + s + "/")
        else None
      case _ => None
    }
  }

  /** The id is read back from the link built for a bare id. */
  lemma DoubanFieldKeepsId(id: string)
    requires IsDigitString(id)
    ensures DoubanField(JStr(id)).Some?
    ensures SearchDigits(DoubanField(JStr(id)).value, "/subject/") == Some(id)
  {
    assert !StartsWith(id, "http") by {
      assert IsDigit(id[0]);
    }
    DoubanSubjectFirst("https:", "movie.douban.com", "/subject/", id, "/");
  }

  /** `anonymous` is set when the release's `anon` is 1 or the tracker is
      configured anonymous. */
  function Anonymous(anon: Option<int>, configAnon: bool): (r: bool)
    ensures r <==> anon == Some(1) || configAnon
    ensures anon == Some(0) && !configAnon ==> !r
  {
    match anon
    case Some(a) => a == 1 || configAnon
    case None => configAnon
  }
}

=== FILE: release.dfy ===
/**
 The release record every adapter reads its form fields from, reduced to the
 keys the mapping functions look at, together with the loosely typed values
 that arrive from lookup services.
 */
module Release {
  import opened Text
  import opened Replace

  /** `genres` and `keywords` arrive either as a list of strings or as a
      single value. */
  datatype Tags = TagText(text: string) | TagList(items: seq<string>)

  /** The text the adapters search: a list is joined with `", "`, a single
      value is used as it is. */
  function TagsText(v: Tags): (r: string)
    ensures v.TagList? && |v.items| == 1 ==> r == v.items[0]
    ensures v.TagList? && |v.items| == 0 ==> r == ""
  {
    match v
    case TagText(t) => t
    case TagList(xs) => Join(", ", xs)
  }

  /** Every entry of a genre list is found in the joined text. */
  lemma {:induction false} TagsTextHoldsItems(xs: seq<string>, k: nat)
    requires k < |xs|
    ensures Contains(TagsText(TagList(xs)), xs[k])
    decreases |xs|
  {
    ContainsSelf(xs[k]);
    if |xs| > 1 {
      var rest := Join(", ", xs[1..]);
      assert Join(", ", xs) == xs[0] + ", " + rest;
      if k == 0 {
        ContainsInLeft(xs[0], ", " + rest, xs[0]);
        assert xs[0] + ", " + rest == xs[0] + (", " + rest);
      } else {
        TagsTextHoldsItems(xs[1..], k - 1);
        assert xs[1..][k - 1] == xs[k];
        ContainsInRight(xs[0] + ", ", rest, xs[k]);
      }
    }
  }

  /** One entry of `mediainfo.media.track`: its `@type`, `Format`,
      `Format_Profile` and `Language` (`""` where the key is absent). */
  datatype Track = Track(kind: string, format: string, profile: string, language: string)

  /** The release record. `tracks` is empty when there is no MediaInfo,
      `bdSubtitles` lists the BDInfo subtitle languages, `regions` the
      PtGen region list, `anon` the `anon` value (a boolean stored as 0/1,
      `None` when the key is absent). */
  datatype Meta = Meta(
    category: string,
    mediaType: string,
    isDisc: string,
    resolution: string,
    genres: Tags,
    keywords: Tags,
    anime: bool,
    tvPack: int,
    tracks: seq<Track>,
    bdSubtitles: seq<string>,
    regions: seq<string>,
    name: string,
    aka: string,
    hasEncodeSettings: bool,
    anon: Option<int>)

  function GenresLower(m: Meta): string {
    Lower(TagsText(m.genres))
  }

  function KeywordsLower(m: Meta): string {
    Lower(TagsText(m.keywords))
  }

  /** The genre tests every adapter repeats, on the lower-cased joined texts. */
  predicate DocumentaryTagged(m: Meta) {
    Contains(GenresLower(m), "documentary") || Contains(KeywordsLower(m), "documentary")
  }

  predicate AnimationTagged(m: Meta) {
    Contains(GenresLower(m), "animation") || Contains(KeywordsLower(m), "animation")
  }

  predicate VarietyTagged(m: Meta) {
    Contains(GenresLower(m), "variety") || Contains(GenresLower(m), "reality") || Contains(GenresLower(m), "talk show")
  }

  /** The first track of the given `@type`, the one the codec ladders read. */
  function FirstOfKind(tracks: seq<Track>, kind: string): (r: Option<Track>)
    ensures r.None? <==> forall i :: 0 <= i < |tracks| ==> tracks[i].kind != kind
    ensures r.Some? ==> exists i :: (0 <= i < |tracks| && tracks[i] == r.value && r.value.kind == kind
      && forall j :: 0 <= j < i ==> tracks[j].kind != kind)
    decreases |tracks|
  {
    if |tracks| == 0 then None
    else if tracks[0].kind == kind then Some(tracks[0])
    else
      var r := FirstOfKind(tracks[1..], kind);
      assert r.Some? ==> exists i :: (0 < i < |tracks| && tracks[i] == r.value
        && forall j :: 0 <= j < i ==> tracks[j].kind != kind) by {
        if r.Some? {
          var i :| 0 <= i < |tracks| - 1 && tracks[1..][i] == r.value && r.value.kind == kind
            && forall j :: 0 <= j < i ==> tracks[1..][j].kind != kind;
          assert tracks[i + 1] == r.value;
          forall j | 0 <= j < i + 1
            ensures tracks[j].kind != kind
          {
            if j > 0 {
              assert tracks[j] == tracks[1..][j - 1];
            }
          }
        }
      }
      r
  }

  /** Some track of `kind` carries a language in `languages`. */
  predicate HasTrack(tracks: seq<Track>, kind: string, languages: set<string>) {
    exists i :: 0 <= i < |tracks| && tracks[i].kind == kind && tracks[i].language in languages
  }

  /** The `for track in tracks: if … break` scan the adapters write. */
  function ScanTracks(tracks: seq<Track>, kind: string, languages: set<string>): (found: bool)
    ensures found <==> HasTrack(tracks, kind, languages)
    decreases |tracks|
  {
    if |tracks| == 0 then false
    else if tracks[0].kind == kind && tracks[0].language in languages then true
    else
      var found := ScanTracks(tracks[1..], kind, languages);
      assert found ==> HasTrack(tracks, kind, languages) by {
        if found {
          var i :| 0 <= i < |tracks| - 1 && tracks[1..][i].kind == kind && tracks[1..][i].language in languages;
          assert tracks[i + 1] == tracks[1..][i];
        }
      }
      assert HasTrack(tracks, kind, languages) ==> found by {
        if HasTrack(tracks, kind, languages) {
          var i :| 0 <= i < |tracks| && tracks[i].kind == kind && tracks[i].language in languages;
          assert i > 0;
          assert tracks[1..][i - 1] == tracks[i];
        }
      }
      found
  }

  /** The `for language in subtitles: if language == … break` scan. */
  function ScanSubtitles(subtitles: seq<string>, language: string): (found: bool)
    ensures found <==> language in subtitles
    decreases |subtitles|
  {
    if |subtitles| == 0 then false
    else if subtitles[0] == language then true
    else
      assert subtitles == [subtitles[0]] + subtitles[1..];
      ScanSubtitles(subtitles[1..], language)
  }

  /** The subtitle evidence shared by `is_zhongzi` and the `中字` label: a
      Text track in `zh` for a file release, a BDInfo `Chinese` subtitle for
      a Blu-ray disc. */
  predicate ChineseSubtitles(m: Meta) {
    if m.isDisc != "BDMV" then HasTrack(m.tracks, "Text", {"zh"})
    else "Chinese" in m.bdSubtitles
  }

  /** A value from a loosely typed JSON object; `JNull` also stands for an
      absent key. */
  datatype Json = JNull | JBool(b: bool) | JInt(i: int) | JStr(s: string)

  /** Python truthiness of the value. */
  predicate Truthy(v: Json) {
    match v
    case JNull => false
    case JBool(b) => b
    case JInt(i) => i != 0
    case JStr(s) => |s| > 0
  }

  /** `int(v)`, `None` where Python raises `TypeError` or `ValueError`. */
  function PyInt(v: Json): (r: Option<int>)
    ensures v.JInt? ==> r == Some(v.i)
    ensures v.JNull? ==> r.None?
  {
    match v
    case JNull => None
    case JBool(b) => Some(if b then 1 else 0)
    case JInt(i) => Some(i)
    case JStr(s) => ParseInt(s)
  }

  /** `str(v)`. */
  function PyStr(v: Json): (r: string)
    ensures v.JStr? ==> r == v.s
    ensures v.JInt? && v.i >= 0 ==> IsDigitString(r)
  {
    match v
    case JNull => "None"
    case JBool(b) => if b then "True" else "False"
    case JInt(i) =>
      NatDigitsRoundTrip(if i < 0 then -i else i);
      if i < 0 then "-" + NatToDigits(-i) else NatToDigits(i)
    case JStr(s) => s
  }
}

=== FILE: replace.dfy ===
/**
 Python's `str.replace`, `str.split` and `str.join` over `seq<char>`, with
 the facts the release-name rewriting relies on: a replacement is a split
 followed by a join, every occurrence present before a pass is consumed by
 it, and a replacement text that shares no boundary character with a marker
 can neither create nor reveal that marker.
 */
module Replace {
  import opened Text

  /** `s.replace(pat, rep)`: scan left to right and rewrite each leftmost
      non-overlapping occurrence of `pat`. With an empty `pat`, Python puts
      `rep` before every character and once more at the end. */
  function ReplaceAll(s: string, pat: string, rep: string): string
    decreases |s|
  {
    if |pat| == 0 then Interleave(s, rep)
    else if |s| == 0 then []
    else if StartsWith(s, pat) then rep + ReplaceAll(s[|pat|..], pat, rep)
    else [s[0]] + ReplaceAll(s[1..], pat, rep)
  }

  function Interleave(s: string, sep: string): string
    decreases |s|
  {
    if |s| == 0 then sep else sep + [s[0]] + Interleave(s[1..], sep)
  }

  /** `s.split(sep)` for a non-empty separator. */
  function Split(s: string, sep: string): (parts: seq<string>)
    requires |sep| > 0
    ensures |parts| >= 1
    decreases |s|
  {
    if |s| == 0 then [""]
    else if StartsWith(s, sep) then [""] + Split(s[|sep|..], sep)
    else
      var rest := Split(s[1..], sep);
      [[s[0]] + rest[0]] + rest[1..]
  }

  /** `sep.join(parts)`. */
  function Join(sep: string, parts: seq<string>): string
    decreases |parts|
  {
    if |parts| == 0 then ""
    else if |parts| == 1 then parts[0]
    else parts[0] + sep + Join(sep, parts[1..])
  }

  lemma JoinConsHead(sep: string, a: string, parts: seq<string>)
    requires |parts| >= 1
    ensures Join(sep, [a + parts[0]] + parts[1..]) == a + Join(sep, parts)
  {
    var ps := [a + parts[0]] + parts[1..];
    if |parts| > 1 {
      assert ps[1..] == parts[1..];
    }
  }

  /** `sep.join(s.split(sep)) == s`. */
  lemma {:induction false} JoinSplit(s: string, sep: string)
    requires |sep| > 0
    ensures Join(sep, Split(s, sep)) == s
    decreases |s|
  {
    if |s| == 0 {
    } else if StartsWith(s, sep) {
      var tail := Split(s[|sep|..], sep);
      JoinSplit(s[|sep|..], sep);
      assert ([""] + tail)[1..] == tail;
      assert s == sep + s[|sep|..];
    } else {
      var rest := Split(s[1..], sep);
      JoinSplit(s[1..], sep);
      JoinConsHead(sep, [s[0]], rest);
      assert [rest[0]] + rest[1..] == rest;
      assert s == [s[0]] + s[1..];
    }
  }

  /** Replacing is splitting at the separator and joining with the replacement. */
  lemma {:induction false} ReplaceIsJoinSplit(s: string, pat: string, rep: string)
    requires |pat| > 0
    ensures ReplaceAll(s, pat, rep) == Join(rep, Split(s, pat))
    decreases |s|
  {
    if |s| == 0 {
    } else if StartsWith(s, pat) {
      var tail := Split(s[|pat|..], pat);
      ReplaceIsJoinSplit(s[|pat|..], pat, rep);
      var parts := [""] + tail;
      assert Split(s, pat) == parts;
      assert parts[1..] == tail;
      assert Join(rep, parts) == "" + rep + Join(rep, tail);
      assert ReplaceAll(s, pat, rep) == rep + ReplaceAll(s[|pat|..], pat, rep);
    } else {
      var rest := Split(s[1..], pat);
      ReplaceIsJoinSplit(s[1..], pat, rep);
      var parts := [[s[0]] + rest[0]] + rest[1..];
      assert Split(s, pat) == parts;
      JoinConsHead(rep, [s[0]], rest);
      assert ReplaceAll(s, pat, rep) == [s[0]] + ReplaceAll(s[1..], pat, rep);
    }
  }

  lemma {:induction false} SplitHeadIsPrefix(s: string, sep: string)
    requires |sep| > 0
    ensures StartsWith(s, Split(s, sep)[0])
    decreases |s|
  {
    if |s| > 0 && !StartsWith(s, sep) {
      SplitHeadIsPrefix(s[1..], sep);
    }
  }

  /** No piece of a split still holds the separator: a single pass consumes
      every occurrence that was present before it. */
  lemma {:induction false} SplitPiecesAreFree(s: string, sep: string)
    requires |sep| > 0
    ensures forall k :: 0 <= k < |Split(s, sep)| ==> !Contains(Split(s, sep)[k], sep)
    decreases |s|
  {
    var parts := Split(s, sep);
    if |s| == 0 {
    } else if StartsWith(s, sep) {
      var tail := Split(s[|sep|..], sep);
      SplitPiecesAreFree(s[|sep|..], sep);
      forall k | 0 <= k < |parts|
        ensures !Contains(parts[k], sep)
      {
        if k > 0 {
          assert parts[k] == tail[k - 1];
        }
      }
    } else {
      var rest := Split(s[1..], sep);
      SplitPiecesAreFree(s[1..], sep);
      SplitHeadIsPrefix(s[1..], sep);
      var head := [s[0]] + rest[0];
      assert head[1..] == rest[0];
      assert s[..|head|] == head;
      assert |sep| <= |head| ==> head[..|sep|] == s[..|sep|];
      forall k | 0 <= k < |parts|
        ensures !Contains(parts[k], sep)
      {
        if k > 0 {
          assert parts[k] == rest[k];
        }
      }
    }
  }

  /** A text with no occurrence of `pat` comes out unchanged. */
  lemma {:induction false} ReplaceAbsent(s: string, pat: string, rep: string)
    requires |pat| > 0 && !Contains(s, pat)
    ensures ReplaceAll(s, pat, rep) == s
    decreases |s|
  {
    if |s| > 0 {
      ReplaceAbsent(s[1..], pat, rep);
    }
  }

  /** Removing the empty string changes nothing. */
  lemma {:induction false} ReplaceEmptyByEmpty(s: string)
    ensures ReplaceAll(s, "", "") == s
    decreases |s|
  {
    if |s| > 0 {
      ReplaceEmptyByEmpty(s[1..]);
    }
  }

  lemma ReplaceOccurrenceFirst(pat: string, rest: string, rep: string)
    requires |pat| > 0
    ensures ReplaceAll(pat + rest, pat, rep) == rep + ReplaceAll(rest, pat, rep)
  {
    assert StartsWith(pat + rest, pat);
    assert (pat + rest)[|pat|..] == rest;
  }

  /** A text that does not open with `pat` keeps its first character. */
  lemma ReplaceCopiesHead(w: string, pat: string, rep: string)
    requires |pat| > 0 && |w| > 0 && w[0] != pat[0]
    ensures ReplaceAll(w, pat, rep) == [w[0]] + ReplaceAll(w[1..], pat, rep)
  {
    assert |pat| <= |w| ==> w[..|pat|][0] == w[0];
    assert !StartsWith(w, pat);
  }

  lemma ConsSplit(a: string, t: string)
    requires |a| > 0
    ensures [a[0]] + (a[1..] + t) == a + t
  {
    assert a == [a[0]] + a[1..];
  }

  /** A stretch without the first character of `pat` is copied through. */
  lemma {:induction false} ReplaceSkip(a: string, b: string, pat: string, rep: string)
    requires |pat| > 0
    requires forall k :: 0 <= k < |a| ==> a[k] != pat[0]
    ensures ReplaceAll(a + b, pat, rep) == a + ReplaceAll(b, pat, rep)
    decreases |a|
  {
    if |a| > 0 {
      var w := a + b;
      assert w[0] == a[0] && w[1..] == a[1..] + b;
      ReplaceCopiesHead(w, pat, rep);
      ReplaceSkip(a[1..], b, pat, rep);
      ConsSplit(a, ReplaceAll(b, pat, rep));
    } else {
      assert a + b == b;
    }
  }

  /** The replacement and the marker `p` cannot overlap in a rewritten string:
      `p` does not start inside `rep`, and `rep` does not start inside `p`. */
  predicate Separated(rep: string, p: string) {
    && |rep| > 0 && |p| > 0
    && (forall k :: 0 <= k < |p| ==> p[k] != rep[0])
    && (forall k :: 0 <= k < |rep| ==> rep[k] != p[0])
  }

  lemma {:induction false} ContainsSkipForeign(a: string, b: string, p: string)
    requires |p| > 0
    requires forall k :: 0 <= k < |a| ==> a[k] != p[0]
    requires Contains(a + b, p)
    ensures Contains(b, p)
    decreases |a|
  {
    if |a| > 0 {
      var w := a + b;
      assert a[0] != p[0];
      assert |p| <= |w| ==> w[..|p|][0] == a[0];
      assert !StartsWith(w, p);
      assert w[1..] == a[1..] + b;
      assert Contains(w[1..], p);
      ContainsSkipForeign(a[1..], b, p);
    } else {
      assert a + b == b;
    }
  }

  /** Where `pat` starts the text, the rewrite starts with `rep`. */
  lemma ReplacedHead(t: string, pat: string, rep: string)
    requires |pat| > 0 && |rep| > 0
    ensures |t| > 0 && StartsWith(t, pat) ==>
      |ReplaceAll(t, pat, rep)| > 0 && ReplaceAll(t, pat, rep)[0] == rep[0]
  {
  }

  lemma {:induction false} PrefixThroughReplace(t: string, pat: string, rep: string, p: string)
    requires |pat| > 0 && |rep| > 0
    requires forall k :: 0 <= k < |p| ==> p[k] != rep[0]
    requires StartsWith(ReplaceAll(t, pat, rep), p)
    ensures StartsWith(t, p)
    decreases |t|
  {
    ReplacedHead(t, pat, rep);
    if |t| > 0 && !StartsWith(t, pat) && |p| > 0 {
      var w := ReplaceAll(t, pat, rep);
      assert w[1..] == ReplaceAll(t[1..], pat, rep);
      assert StartsWith(w[1..], p[1..]);
      PrefixThroughReplace(t[1..], pat, rep, p[1..]);
      assert t == [t[0]] + t[1..];
    }
  }

  /** A rewrite whose replacement is separated from `p` cannot create `p`. */
  lemma {:induction false} ContainsThroughReplace(t: string, pat: string, rep: string, p: string)
    requires |pat| > 0 && Separated(rep, p)
    requires Contains(ReplaceAll(t, pat, rep), p)
    ensures Contains(t, p)
    decreases |t|
  {
    var w := ReplaceAll(t, pat, rep);
    if |t| == 0 {
    } else if StartsWith(t, pat) {
      var t' := t[|pat|..];
      ContainsSkipForeign(rep, ReplaceAll(t', pat, rep), p);
      ContainsThroughReplace(t', pat, rep, p);
      assert t == t[..|pat|] + t';
      ContainsInRight(t[..|pat|], t', p);
    } else if StartsWith(w, p) {
      PrefixThroughReplace(t, pat, rep, p);
      ContainsAt(t, p, 0);
    } else {
      assert w[1..] == ReplaceAll(t[1..], pat, rep);
      ContainsThroughReplace(t[1..], pat, rep, p);
    }
  }

  /** A rewrite whose replacement is separated from `pat` leaves no `pat` behind. */
  lemma {:induction false} NoOccurrenceAfterReplace(s: string, pat: string, rep: string)
    requires Separated(rep, pat)
    ensures !Contains(ReplaceAll(s, pat, rep), pat)
    decreases |s|
  {
    var w := ReplaceAll(s, pat, rep);
    if |s| == 0 {
    } else if StartsWith(s, pat) {
      NoOccurrenceAfterReplace(s[|pat|..], pat, rep);
      if Contains(w, pat) {
        ContainsSkipForeign(rep, ReplaceAll(s[|pat|..], pat, rep), pat);
      }
    } else {
      NoOccurrenceAfterReplace(s[1..], pat, rep);
      assert w[1..] == ReplaceAll(s[1..], pat, rep);
      if StartsWith(w, pat) {
        PrefixThroughReplace(s, pat, rep, pat);
      }
    }
  }

  /** A separated rewrite cannot bring back a marker the text does not hold. */
  lemma ReplaceKeepsAbsent(s: string, pat: string, rep: string, p: string)
    requires |pat| > 0 && Separated(rep, p) && !Contains(s, p)
    ensures !Contains(ReplaceAll(s, pat, rep), p)
  {
    if Contains(ReplaceAll(s, pat, rep), p) {
      ContainsThroughReplace(s, pat, rep, p);
    }
  }
}

=== FILE: shared.dfy ===
/**
 The form-field code that several adapters carry as word-for-word copies:
 the release-name rewriting (M-Team, Audiences, HHAN, HDSKY), the Chinese
 subtitle flag, the area id and the medium id (Audiences, HHAN, HDSKY, U2,
 CHD), and the acceptance of a scraped torrent hash (HHAN, U2, CHD). Each is
 defined once here; the adapters' copies agree with it by construction.
 */
module Shared {
  import opened Text
  import opened Replace
  import opened Release
  import opened Urls

  // ---------------------------------------------------------------------------
  // Release name
  // ---------------------------------------------------------------------------

  /** The first two passes: every `Dubbed`, then every `Dual-Audio`, removed. */
  function RemoveDubMarkers(name: string): (r: string)
    ensures !Contains(name, "Dubbed") && !Contains(name, "Dual-Audio") ==> r == name
  {
    MarkerFreeUntouched(name, "Dubbed", "Dual-Audio");
    ReplaceAll(ReplaceAll(name, "Dubbed", ""), "Dual-Audio", "")
  }

  // Here and below, string literals a lemma needs (`"Dubbed"`, the Douban
  // host, the area table) are parameters pinned by `requires`: a literal in
  // the contract lets the solver unfold `ReplaceAll` or the search over it in
  // every caller, and the pinned parameter stays opaque until the body uses it.

  /** Removing markers the name does not hold leaves it as it is. */
  lemma MarkerFreeUntouched(name: string, dub: string, dual: string)
    requires dub == "Dubbed" && dual == "Dual-Audio"
    ensures !Contains(name, dub) && !Contains(name, dual) ==>
      ReplaceAll(ReplaceAll(name, dub, ""), dual, "") == name
  {
    if !Contains(name, dub) && !Contains(name, dual) {
      ReplaceAbsent(name, dub, "");
      ReplaceAbsent(name, dual, "");
    }
  }

  /** `H.264` becomes `x264` for a WEB-DL whose `has_encode_settings` is True. */
  predicate RenamesH264(m: Meta) {
    m.mediaType == "WEBDL" && m.hasEncodeSettings
  }

  /** The last two passes: `PQ10` to `HDR`, and `H.264` to `x264` when
      `RenamesH264` holds. */
  function FinishName(name: string, m: Meta): (r: string)
    ensures !Contains(r, "PQ10")
    ensures RenamesH264(m) ==> !Contains(r, "H.264")
    ensures !RenamesH264(m) ==> r == ReplaceAll(name, "PQ10", "HDR")
  {
    var hdr := ReplaceAll(name, "PQ10", "HDR");
    NoOccurrenceAfterReplace(name, "PQ10", "HDR");
    if RenamesH264(m) then
      ReplaceKeepsAbsent(hdr, "H.264", "x264", "PQ10");
      NoOccurrenceAfterReplace(hdr, "H.264", "x264");
      ReplaceAll(hdr, "H.264", "x264")
    else hdr
  }

  /** `edit_name`: the release name with the dub markers and the AKA title
      removed, `PQ10` spelled `HDR`, and `H.264` spelled `x264` for
      re-encoded WEB-DLs. */
  function EditName(m: Meta): (r: string)
    ensures !Contains(r, "PQ10")
    ensures RenamesH264(m) ==> !Contains(r, "H.264")
  {
    FinishName(ReplaceAll(RemoveDubMarkers(m.name), m.aka, ""), m)
  }

  /** An empty AKA title removes nothing. */
  lemma EditNameEmptyAka(m: Meta)
    requires m.aka == ""
    ensures EditName(m) == FinishName(RemoveDubMarkers(m.name), m)
  {
    ReplaceEmptyByEmpty(RemoveDubMarkers(m.name));
  }

  /** Each removal is one pass: the name is cut at every occurrence present
      before the pass and the pieces, none of which holds the marker, are
      glued together. */
  lemma DubPassConsumesAll(name: string)
    ensures ReplaceAll(name, "Dubbed", "") == Join("", Split(name, "Dubbed"))
    ensures forall k :: 0 <= k < |Split(name, "Dubbed")| ==> !Contains(Split(name, "Dubbed")[k], "Dubbed")
    ensures ReplaceAll(name, "Dual-Audio", "") == Join("", Split(name, "Dual-Audio"))
    ensures forall k :: 0 <= k < |Split(name, "Dual-Audio")| ==> !Contains(Split(name, "Dual-Audio")[k], "Dual-Audio")
  {
    ReplaceIsJoinSplit(name, "Dubbed", "");
    SplitPiecesAreFree(name, "Dubbed");
    ReplaceIsJoinSplit(name, "Dual-Audio", "");
    SplitPiecesAreFree(name, "Dual-Audio");
  }

  /** One pass is not a fixed point: gluing the pieces can form a new
      marker (`Dub` + `Dubbed` + `bed` leaves `Dubbed`). */
  lemma DubPassCanLeaveMarker(front: string, marker: string, back: string)
    requires front == "Dub" && marker == "Dubbed" && back == "bed"
    ensures ReplaceAll(front + marker + back, marker, "") == marker
  {
    var s := front + marker + back;
    assert !StartsWith(s, marker) by { assert s[3] != marker[3]; }
    assert !StartsWith(s[1..], marker) by { assert s[1] != marker[0]; }
    assert !StartsWith(s[2..], marker) by { assert s[2] != marker[0]; }
    assert s[3..] == marker + back;
    ReplaceOccurrenceFirst(marker, back, "");
    ContainsFits(back, marker);
    ReplaceAbsent(back, marker, "");
    assert ReplaceAll(s, marker, "") == [s[0]] + ReplaceAll(s[1..], marker, "");
    assert ReplaceAll(s[1..], marker, "") == [s[1]] + ReplaceAll(s[2..], marker, "");
    assert ReplaceAll(s[2..], marker, "") == [s[2]] + ReplaceAll(s[3..], marker, "");
    assert s[2..][1..] == s[3..];
    assert s[1..][1..] == s[2..];
  }

  /** A clean name is left as it is. */
  lemma EditNameKeepsCleanName(m: Meta)
    requires m.aka == ""
    requires !Contains(m.name, "Dubbed") && !Contains(m.name, "Dual-Audio") && !Contains(m.name, "PQ10")
    requires RenamesH264(m) ==> !Contains(m.name, "H.264")
    ensures EditName(m) == m.name
  {
    EditNameEmptyAka(m);
    ReplaceAbsent(m.name, "PQ10", "HDR");
    if RenamesH264(m) {
      ReplaceAbsent(m.name, "H.264", "x264");
    }
  }

  // ---------------------------------------------------------------------------
  // Chinese subtitle flag
  // ---------------------------------------------------------------------------

  /** `is_zhongzi`: `'yes'` when there is Chinese subtitle evidence, `None`
      otherwise. */
  function IsZhongzi(m: Meta): (r: Option<string>)
    ensures r.Some? <==> ChineseSubtitles(m)
    ensures r.Some? ==> r.value == "yes"
  {
    var found :=
      if m.isDisc != "BDMV" then ScanTracks(m.tracks, "Text", {"zh"})
      else ScanSubtitles(m.bdSubtitles, "Chinese");
    if found then Some("yes") else None
  }

  /** A file release is judged by its Text tracks alone, a Blu-ray disc by
      its BDInfo subtitle list alone. */
  lemma ZhongziSources(m: Meta, tracks: seq<Track>, subtitles: seq<string>)
    ensures m.isDisc != "BDMV" ==> IsZhongzi(m) == IsZhongzi(m.(bdSubtitles := subtitles))
    ensures m.isDisc == "BDMV" ==> IsZhongzi(m) == IsZhongzi(m.(tracks := tracks))
  {
  }

  // ---------------------------------------------------------------------------
  // Area
  // ---------------------------------------------------------------------------

  /** The adapters' `area_map`, in the order the dict literal lists its keys. */
  const AreaTable: seq<(string, int)> := [
    ("中国大陆", 1), ("中国香港", 2), ("中国台湾", 3), ("美国", 4), ("日本", 6), ("韩国", 5),
    ("印度", 7), ("法国", 4), ("意大利", 4), ("德国", 4), ("西班牙", 4), ("葡萄牙", 4),
    ("英国", 4), ("阿根廷", 8), ("澳大利亚", 4), ("比利时", 4),
    ("巴西", 8), ("加拿大", 4), ("瑞士", 4), ("智利", 8)]

  const DefaultArea := 8

  /** The index of the first table entry, at or after `from`, whose key is
      one of the regions. */
  function FirstListedFrom(table: seq<(string, int)>, regions: seq<string>, from: nat): (r: Option<nat>)
    ensures r.Some? ==>
      && from <= r.value < |table|
      && table[r.value].0 in regions
      && (forall j :: from <= j < r.value ==> table[j].0 !in regions)
    ensures r.None? ==> forall j :: from <= j < |table| ==> table[j].0 !in regions
    decreases |table| - from
  {
    if from >= |table| then None
    else if table[from].0 in regions then Some(from)
    else FirstListedFrom(table, regions, from + 1)
  }

  /** `get_area_id`: the value of the first `area_map` key, in map order,
      that the PtGen region list holds; 8 when it holds none. */
  function AreaId(regions: seq<string>): (r: int)
    ensures 1 <= r <= 8
    ensures (forall i :: 0 <= i < |AreaTable| ==> AreaTable[i].0 !in regions) ==> r == DefaultArea
    ensures (exists i :: 0 <= i < |AreaTable| && AreaTable[i].0 in regions) ==>
      exists i :: (&& 0 <= i < |AreaTable| && AreaTable[i].0 in regions && r == AreaTable[i].1
                   && forall j :: 0 <= j < i ==> AreaTable[j].0 !in regions)
  {
    AreaValuesInRange(AreaTable);
    match FirstListedFrom(AreaTable, regions, 0)
    case None => DefaultArea
    case Some(i) => AreaTable[i].1
  }

  lemma AreaValuesInRange(table: seq<(string, int)>)
    requires table == AreaTable
    ensures forall k :: 0 <= k < |table| ==> 1 <= table[k].1 <= 8
  {
  }

  /** Only which regions are listed matters, not their order or repetition. */
  lemma AreaIgnoresRegionOrder(a: seq<string>, b: seq<string>)
    requires forall x :: x in a <==> x in b
    ensures AreaId(a) == AreaId(b)
  {
    var fa := FirstListedFrom(AreaTable, a, 0);
    var fb := FirstListedFrom(AreaTable, b, 0);
    if fa.Some? {
      assert AreaTable[fa.value].0 in b;
      assert fb.Some? && fb.value <= fa.value;
      assert AreaTable[fb.value].0 in a;
      assert fb.value == fa.value;
    }
  }

  /** The map order decides, not the region order: a Korean-Japanese
      co-production listed Korea first is still filed under Japan's id. */
  lemma AreaFollowsMapOrder()
    ensures AreaId(["韩国", "日本"]) == 6
  {
    var regions := ["韩国", "日本"];
    assert AreaTable[4].0 in regions;
    assert forall j :: 0 <= j < 4 ==> AreaTable[j].0 !in regions;
    assert FirstListedFrom(AreaTable, regions, 0) == Some(4);
  }

  // ---------------------------------------------------------------------------
  // Medium
  // ---------------------------------------------------------------------------

  const DiscKinds: set<string> := {"BDMV", "HD DVD"}
  const EncodeTypes: set<string> := {"ENCODE", "WEBRIP"}

  /** `get_type_medium_id`: a chain of `if` statements, each overwriting the
      id of the ones before it. */
  function MediumId(m: Meta): (r: string)
    ensures r in {"EXIT", "1", "2", "7", "4", "6", "3", "5"}
    ensures m.mediaType == "WEBDL" ==> r == "5"
    ensures m.mediaType == "REMUX" ==> r == "3"
    ensures m.mediaType in EncodeTypes ==> r == "6"
    ensures m.mediaType == "HDTV" ==> r == "4"
    ensures m.mediaType !in {"WEBDL", "REMUX", "ENCODE", "WEBRIP", "HDTV"} ==>
      && (r == "1" <==> m.isDisc in DiscKinds && m.resolution == "2160p")
      && (r == "2" <==> m.isDisc in DiscKinds && m.resolution != "2160p")
      && (r == "7" <==> m.isDisc == "DVD")
      && (r == "EXIT" <==> m.isDisc !in DiscKinds && m.isDisc != "DVD")
  {
    var id := "EXIT";
    var id := if m.isDisc in DiscKinds then (if m.resolution == "2160p" then "1" else "2") else id;
    var id := if m.isDisc == "DVD" then "7" else id;
    var id := if m.mediaType == "HDTV" then "4" else id;
    var id := if m.mediaType in EncodeTypes then "6" else id;
    var id := if m.mediaType == "REMUX" then "3" else id;
    var id := if m.mediaType == "WEBDL" then "5" else id;
    id
  }

  /** A type-based id overrides the disc kind entirely. */
  lemma MediumTypeOverridesDisc(m: Meta, isDisc: string, resolution: string)
    requires m.mediaType in {"WEBDL", "REMUX", "ENCODE", "WEBRIP", "HDTV"}
    ensures MediumId(m) == MediumId(m.(isDisc := isDisc, resolution := resolution))
  {
  }

  // ---------------------------------------------------------------------------
  // Douban link found on a details page
  // ---------------------------------------------------------------------------

  const DoubanSubject := "https://movie.douban.com/subject/"

  /** The only `/subject/<digits>` in a subject page URL is the id. */
  lemma DoubanSubjectFirst(scheme: string, host: string, marker: string, id: string, rest: string)
    requires scheme == "https:" && host == "movie.douban.com" && marker == "/subject/"
    requires IsDigitString(id)
    requires |rest| == 0 || !IsDigit(rest[0])
    ensures SearchDigits(DoubanSubject + id + rest, marker) == Some(id)
  {
    var head := scheme + "//" + host;
    var tail := marker + id + rest;
    SubjectPageParts(scheme, host, marker);
    assert DoubanSubject + id + rest == head + tail;
    NoMatchInPrefix(scheme, host, marker, tail);
    SearchDigitsAfter(head, marker, id, rest);
  }

  lemma SubjectPageParts(scheme: string, host: string, marker: string)
    requires scheme == "https:" && host == "movie.douban.com" && marker == "/subject/"
    ensures DoubanSubject == scheme + "//" + host + marker
    ensures forall k :: 0 <= k < |scheme| ==> scheme[k] != '/'
    ensures forall k :: 0 <= k < |host| ==> host[k] != '/'
    ensures |host| > 0 && host[0] != marker[1]
  {
  }

  /** What the details-page scrapers record for a Douban link. */
  datatype DoubanRef = DoubanRef(id: string, url: string)

  /** A link's `href` made absolute: a path gets the Douban host, any other
      text that is not already a URL is taken as a subject id. */
  function DoubanAbsolute(href: string): (r: string)
    ensures StartsWith(href, "/") ==> r == "https://movie.douban.com" + href
    ensures StartsWith(href, "http") ==> r == href
    ensures !StartsWith(href, "/") && !StartsWith(href, "http") ==> r == DoubanSubject + href
  {
    if StartsWith(href, "/") then
      assert href[0] == href[..1][0] == '/';
      assert |href| < 4 || href[..4][0] != 'h';
      "https://movie.douban.com" + href
    else if !StartsWith(href, "http") then DoubanSubject + href
    else href
  }

  /** The id is the first digit run after `/subject/`, and the URL kept is
      always the canonical subject page for it. */
  function DoubanFromHref(href: string): (r: Option<DoubanRef>)
    ensures r.Some? ==> IsDigitString(r.value.id) && r.value.url == DoubanSubject + r.value.id + "/"
    ensures r.Some? ==> Contains(DoubanAbsolute(href), "/subject/" + r.value.id)
    ensures r.Some? ==> FirstRun(DoubanAbsolute(href), "/subject/", r.value.id)
    ensures r.None? <==> forall j :: 0 <= j < |DoubanAbsolute(href)| ==> !MatchAt(DoubanAbsolute(href), "/subject/", j)
  {
    match SearchDigits(DoubanAbsolute(href), "/subject/")
    case None => None
    case Some(id) => Some(DoubanRef(id, DoubanSubject + id + "/"))
  }

  /** The canonical URL is a fixed point of the normalisation. */
  lemma DoubanCanonicalFixed(id: string)
    requires IsDigitString(id)
    ensures DoubanFromHref(DoubanSubject + id + "/") == Some(DoubanRef(id, DoubanSubject + id + "/"))
  {
    var url := DoubanSubject + id + "/";
    assert url[..4] == DoubanSubject[..4] == "http";
    assert DoubanAbsolute(url) == url;
    DoubanSubjectFirst("https:", "movie.douban.com", "/subject/", id, "/");
    assert SearchDigits(DoubanAbsolute(url), "/subject/") == Some(id);
  }

  /** A site-relative link `/subject/<id>/` resolves to the same subject. */
  lemma DoubanRelativeLink(id: string)
    requires IsDigitString(id)
    ensures DoubanFromHref("/subject/" + id + "/") == Some(DoubanRef(id, DoubanSubject + id + "/"))
  {
    var href := "/subject/" + id + "/";
    assert StartsWith(href, "/");
    assert "https://movie.douban.com" + href == DoubanSubject + id + "/";
    DoubanSubjectFirst("https:", "movie.douban.com", "/subject/", id, "/");
  }

  /** A bare id resolves to its subject. */
  lemma DoubanBareId(id: string)
    requires IsDigitString(id)
    ensures DoubanFromHref(id) == Some(DoubanRef(id, DoubanSubject + id + "/"))
  {
    assert !StartsWith(id, "/") && !StartsWith(id, "http") by {
      assert IsDigit(id[0]);
    }
    assert DoubanSubject + id == DoubanSubject + id + "";
    DoubanSubjectFirst("https:", "movie.douban.com", "/subject/", id, "");
  }

  // ---------------------------------------------------------------------------
  // Torrent hash scraped from a details page
  // ---------------------------------------------------------------------------

  /** The hash element's text, stripped, is kept only at exactly 40
      characters. */
  function AcceptHash(text: string): (r: Option<string>)
    ensures r.Some? <==> |Strip(text)| == 40
    ensures r.Some? ==> r.value == Strip(text) && |r.value| == 40
    ensures r.Some? ==> !IsSpace(r.value[0]) && !IsSpace(r.value[39])
  {
    var h := Strip(text);
    if |h| == 40 then Some(h) else None
  }

  lemma StripKeepsTrimmed(s: string)
    requires |s| > 0 ==> !IsSpace(s[0]) && !IsSpace(s[|s| - 1])
    ensures Strip(s) == s
  {
    assert TrimEnd(s) == s;
    assert TrimStart(s) == s;
  }

  /** An accepted hash is accepted again unchanged. */
  lemma AcceptHashIdempotent(text: string)
    requires AcceptHash(text).Some?
    ensures AcceptHash(AcceptHash(text).value) == AcceptHash(text)
  {
    StripKeepsTrimmed(Strip(text));
  }
}

=== FILE: text.dfy ===
/**
 The handful of Python `str` operations the tracker adapters rely on, over
 `seq<char>`: substring membership (`p in s`), `startswith`, ASCII case
 mapping (`lower`/`upper`), `strip`/`lstrip`, `isdigit` and `int`.
 */
module Text {

  datatype Option<+T> = None | Some(value: T)

  // ---------------------------------------------------------------------------
  // Case mapping (ASCII part of str.lower / str.upper)
  // ---------------------------------------------------------------------------

  predicate IsAsciiLetter(c: char) {
    ('A' <= c <= 'Z') || ('a' <= c <= 'z')
  }

  function LowerChar(c: char): char {
    if 'A' <= c <= 'Z' then (c as int + 32) as char else c
  }

  function UpperChar(c: char): char {
    if 'a' <= c <= 'z' then (c as int - 32) as char else c
  }

  function Lower(s: string): (r: string)
    ensures |r| == |s|
    ensures forall i :: 0 <= i < |s| ==> r[i] == LowerChar(s[i])
  {
    seq(|s|, i requires 0 <= i < |s| => LowerChar(s[i]))
  }

  function Upper(s: string): (r: string)
    ensures |r| == |s|
    ensures forall i :: 0 <= i < |s| ==> r[i] == UpperChar(s[i])
  {
    seq(|s|, i requires 0 <= i < |s| => UpperChar(s[i]))
  }

  // ---------------------------------------------------------------------------
  // startswith and `in`
  // ---------------------------------------------------------------------------

  /** Python's `s.startswith(p)`. */
  predicate StartsWith(s: string, p: string) {
    |p| <= |s| && s[..|p|] == p
  }

  /** Python's `p in s` for strings: some suffix of `s` starts with `p`. */
  predicate Contains(s: string, p: string)
    decreases |s|
  {
    StartsWith(s, p) || (|s| > 0 && Contains(s[1..], p))
  }

  lemma {:induction false} ContainsAt(s: string, p: string, i: nat)
    requires i <= |s| && StartsWith(s[i..], p)
    ensures Contains(s, p)
    decreases i
  {
    if i > 0 {
      assert s[1..][i - 1..] == s[i..];
      ContainsAt(s[1..], p, i - 1);
    }
  }

  /** An occurrence found by `in` has a position. */
  lemma {:induction false} ContainsIndex(s: string, p: string) returns (i: nat)
    requires Contains(s, p)
    ensures i + |p| <= |s| && s[i..i + |p|] == p
    decreases |s|
  {
    if StartsWith(s, p) {
      i := 0;
    } else {
      var j := ContainsIndex(s[1..], p);
      i := j + 1;
      assert s[1..][j..j + |p|] == s[i..i + |p|];
    }
  }

  /** Nothing longer than `s` occurs in it. */
  lemma {:induction false} ContainsFits(s: string, p: string)
    ensures Contains(s, p) ==> |p| <= |s|
    decreases |s|
  {
    if |s| > 0 {
      ContainsFits(s[1..], p);
    }
  }

  /** `in` is transitive: a marker inside a longer marker is found wherever the longer one is. */
  lemma ContainsTransitive(s: string, p: string, q: string)
    requires Contains(s, p) && Contains(p, q)
    ensures Contains(s, q)
  {
    var i := ContainsIndex(s, p);
    var j := ContainsIndex(p, q);
    forall k | 0 <= k < |q|
      ensures s[i + j + k] == q[k]
    {
      assert s[i..i + |p|][j + k] == s[i + j + k];
      assert p[j..j + |q|][k] == p[j + k];
    }
    assert s[i + j..][..|q|] == q;
    ContainsAt(s, q, i + j);
  }

  lemma ContainsLiteral(s: string, p: string, q: string)
    requires Contains(s, p) && StartsWith(p, q)
    ensures Contains(s, q)
  {
    ContainsAt(p, q, 0);
    ContainsTransitive(s, p, q);
  }

  lemma ContainsInLeft(a: string, b: string, p: string)
    requires Contains(a, p)
    ensures Contains(a + b, p)
  {
    var i := ContainsIndex(a, p);
    assert (a + b)[i..][..|p|] == a[i..i + |p|];
    ContainsAt(a + b, p, i);
  }

  lemma ContainsInRight(a: string, b: string, p: string)
    requires Contains(b, p)
    ensures Contains(a + b, p)
  {
    var i := ContainsIndex(b, p);
    assert (a + b)[|a| + i..][..|p|] == b[i..i + |p|];
    ContainsAt(a + b, p, |a| + i);
  }

  lemma ContainsSelf(s: string)
    ensures Contains(s, s)
  {
    assert StartsWith(s, s);
  }

  /** Lower-casing a text keeps every (lower-cased) occurrence. */
  lemma ContainsLower(s: string, p: string)
    requires Contains(s, p)
    ensures Contains(Lower(s), Lower(p))
  {
    var i := ContainsIndex(s, p);
    assert Lower(s)[i..][..|p|] == Lower(p);
    ContainsAt(Lower(s), Lower(p), i);
  }

  /** For a marker with no ASCII letter (a Chinese marker, say) `in` gives the
      same answer on the text and on its lower-cased form. */
  lemma ContainsLowerNonLetters(s: string, p: string)
    requires forall k :: 0 <= k < |p| ==> !IsAsciiLetter(p[k])
    ensures Contains(Lower(s), p) <==> Contains(s, p)
  {
    if Contains(s, p) {
      var i := ContainsIndex(s, p);
      forall k | 0 <= k < |p|
        ensures Lower(s)[i + k] == p[k]
      {
        assert s[i + k] == p[k];
      }
      assert Lower(s)[i..][..|p|] == p;
      ContainsAt(Lower(s), p, i);
    }
    if Contains(Lower(s), p) {
      var i := ContainsIndex(Lower(s), p);
      forall k | 0 <= k < |p|
        ensures s[i + k] == p[k]
      {
        assert LowerChar(s[i + k]) == p[k];
      }
      assert s[i..][..|p|] == p;
      ContainsAt(s, p, i);
    }
  }

  // ---------------------------------------------------------------------------
  // strip / lstrip
  // ---------------------------------------------------------------------------

  /** The ASCII characters for which Python's `str.isspace` holds. */
  predicate IsSpace(c: char) {
    c == ' ' || (9 <= c as int <= 13) || (28 <= c as int <= 31)
  }

  function TrimStart(s: string): (r: string)
    ensures |r| <= |s| && r == s[|s| - |r|..]
    ensures |r| > 0 ==> !IsSpace(r[0])
    decreases |s|
  {
    if |s| > 0 && IsSpace(s[0]) then TrimStart(s[1..]) else s
  }

  function TrimEnd(s: string): (r: string)
    ensures |r| <= |s| && r == s[..|r|]
    ensures |r| > 0 ==> !IsSpace(r[|r| - 1])
    decreases |s|
  {
    if |s| > 0 && IsSpace(s[|s| - 1]) then TrimEnd(s[..|s| - 1]) else s
  }

  /** Python's `s.strip()` (ASCII whitespace). */
  function Strip(s: string): (r: string)
    ensures |r| <= |s|
    ensures |r| > 0 ==> !IsSpace(r[0]) && !IsSpace(r[|r| - 1])
  {
    TrimStart(TrimEnd(s))
  }

  /** Python's `s.lstrip(c)` for a one-character argument. */
  function LStripChar(s: string, c: char): (r: string)
    ensures |r| <= |s| && r == s[|s| - |r|..]
    ensures |r| > 0 ==> r[0] != c
    decreases |s|
  {
    if |s| > 0 && s[0] == c then LStripChar(s[1..], c) else s
  }

  // ---------------------------------------------------------------------------
  // Digits and int()
  // ---------------------------------------------------------------------------

  predicate IsDigit(c: char) {
    '0' <= c <= '9'
  }

  predicate AllDigits(s: string) {
    forall i :: 0 <= i < |s| ==> IsDigit(s[i])
  }

  /** Python's `s.isdigit()`: non-empty and every character a digit. */
  predicate IsDigitString(s: string) {
    |s| > 0 && AllDigits(s)
  }

  function DigitValue(c: char): nat
    requires IsDigit(c)
  {
    c as int - '0' as int
  }

  function DigitChar(d: nat): (c: char)
    requires d < 10
    ensures IsDigit(c) && DigitValue(c) == d
  {
    ('0' as int + d) as char
  }

  /** The number a digit string denotes, read most significant digit first. */
  function DigitsValue(s: string): nat
    requires AllDigits(s)
    decreases |s|
  {
    if |s| == 0 then 0 else DigitsValue(s[..|s| - 1]) * 10 + DigitValue(s[|s| - 1])
  }

  /** The decimal text of a natural number, as Python's `str(n)` writes it. */
  function NatToDigits(n: nat): string
    decreases n
  {
    if n < 10 then [DigitChar(n)] else NatToDigits(n / 10) + [DigitChar(n % 10)]
  }

  /** `int(str(n)) == n`: decimal printing and digit reading are inverse. */
  lemma {:induction false} NatDigitsRoundTrip(n: nat)
    ensures IsDigitString(NatToDigits(n))
    ensures DigitsValue(NatToDigits(n)) == n
    decreases n
  {
    if n >= 10 {
      NatDigitsRoundTrip(n / 10);
      var s := NatToDigits(n);
      assert s[..|s| - 1] == NatToDigits(n / 10);
    }
  }

  /** Python's `int(s)` on a string: surrounding whitespace, an optional sign
      and at least one digit; `None` where Python raises `ValueError`. */
  function ParseInt(s: string): (r: Option<int>)
    ensures r.Some? ==> |Strip(s)| > 0
  {
    var t := Strip(s);
    if |t| > 0 && (t[0] == '+' || t[0] == '-') then
      if IsDigitString(t[1..]) then
        var magnitude: int := DigitsValue(t[1..]);
        Some(if t[0] == '-' then -magnitude else magnitude)
      else None
    else if IsDigitString(t) then Some(DigitsValue(t))
    else None
  }

  lemma ParseIntOfDigits(n: nat)
    ensures ParseInt(NatToDigits(n)) == Some(n)
  {
    NatDigitsRoundTrip(n);
    var s := NatToDigits(n);
    assert IsDigit(s[0]) && IsDigit(s[|s| - 1]);
    assert TrimEnd(s) == s;
    assert TrimStart(s) == s;
    assert s[0] != '+' && s[0] != '-';
  }
}

=== FILE: u2.dfy ===
/**
 The U2 adapter: its category id (shared word for word with CHD), the
 logged-out page test, the AniDB id picked from the page, the IMDb text
 cleaning and the fill-only merge of ids looked up for that AniDB id. The
 area id, the medium id and the scraped hash check come from `Shared`.
 */
module U2 {
  import opened Text
  import opened Release
  import opened Shared

  // ---------------------------------------------------------------------------
  // Category (the CHD adapter carries the same code)
  // ---------------------------------------------------------------------------

  predicate AnimeTagged(m: Meta) {
    AnimationTagged(m) || Contains(GenresLower(m), "anime")
  }

  /** `get_type_category_id`: each `if` overwrites the ones before it, so
      documentary beats variety, which beats animation, which beats the
      category. */
  function CategoryId(m: Meta): (r: string)
    ensures r == "402" <==> DocumentaryTagged(m)
    ensures r == "405" <==> !DocumentaryTagged(m) && VarietyTagged(m)
    ensures r == "403" <==> !DocumentaryTagged(m) && !VarietyTagged(m) && AnimeTagged(m)
    ensures r == "404" <==> !DocumentaryTagged(m) && !VarietyTagged(m) && !AnimeTagged(m) && m.category == "TV"
    ensures r == "401" <==> !DocumentaryTagged(m) && !VarietyTagged(m) && !AnimeTagged(m) && m.category == "MOVIE"
    ensures r == "0" <==>
      !DocumentaryTagged(m) && !VarietyTagged(m) && !AnimeTagged(m) && m.category != "TV" && m.category != "MOVIE"
  {
    var id := "0";
    var id := if m.category == "MOVIE" then "401" else id;
    var id := if m.category == "TV" then "404" else id;
    var id := if AnimeTagged(m) then "403" else id;
    var id := if VarietyTagged(m) then "405" else id;
    var id := if DocumentaryTagged(m) then "402" else id;
    id
  }

  // ---------------------------------------------------------------------------
  // Logged-out page
  // ---------------------------------------------------------------------------

  const NotLoggedIn := "未登录"

  /** The page is a login page: its lower-cased text holds `login` and one
      of `username`, `password`, or the "not logged in" notice. */
  predicate LoggedOut(text: string) {
    var page := Lower(text);
    Contains(page, "login")
      && (Contains(page, "username") || Contains(page, "password") || Contains(text, NotLoggedIn))
  }

  /** The notice has no ASCII letter, so looking for it in the lower-cased
      page is the same test. The notice, and `"tt"` further on, are
      parameters pinned by `requires` so that callers' proofs do not unfold
      the string functions over the literal. */
  lemma NoticeCaseFree(text: string, notice: string)
    requires notice == NotLoggedIn
    ensures Contains(Lower(text), notice) <==> Contains(text, notice)
  {
    ContainsLowerNonLetters(text, notice);
  }

  /** The five values the details page yields before the ids.moe merge;
      `get_info_from_torrent_id` returns these with IMDb and TMDb replaced
      by the merged ids (`MergeIds`). */
  datatype Details = Details(
    imdb: Option<int>,
    tmdb: Option<int>,
    name: Option<string>,
    torrentHash: Option<string>,
    description: Option<string>)

  const NoDetails := Details(None, None, None, None, None)

  /** The values read off the page by the selectors: the hash element's raw
      text rather than the accepted hash. */
  datatype Scraped = Scraped(
    imdb: Option<int>,
    tmdb: Option<int>,
    name: Option<string>,
    hashText: Option<string>,
    description: Option<string>)

  /** The result for a page with status `status`: nothing unless the page
      answered 200 and is not a login page; otherwise the scraped values,
      with a hash kept only at 40 characters. */
  function PageDetails(status: int, text: string, scraped: Scraped): (r: Details)
    ensures status != 200 || LoggedOut(text) ==> r == NoDetails
    ensures status == 200 && !LoggedOut(text) ==>
      && r.imdb == scraped.imdb && r.tmdb == scraped.tmdb
      && r.name == scraped.name && r.description == scraped.description
    ensures r.torrentHash.Some? ==> |r.torrentHash.value| == 40
    ensures r.torrentHash.Some? ==> scraped.hashText.Some? && r.torrentHash == AcceptHash(scraped.hashText.value)
    ensures status == 200 && !LoggedOut(text) ==>
      r.torrentHash == (if scraped.hashText.Some? then AcceptHash(scraped.hashText.value) else None)
  {
    if status != 200 || LoggedOut(text) then NoDetails
    else
      var hash := match scraped.hashText {
        case None => None
        case Some(t) => AcceptHash(t)
      };
      Details(scraped.imdb, scraped.tmdb, scraped.name, hash, scraped.description)
  }

  // ---------------------------------------------------------------------------
  // AniDB id
  // ---------------------------------------------------------------------------

  /** One match of the AniDB link pattern: what each of its three
      alternatives captured (`None` for an alternative that did not take
      part). Which matches the page yields is the regular-expression
      engine's business and arrives as a list. */
  datatype AidMatch = AidMatch(g1: Option<string>, g2: Option<string>, g3: Option<string>)

  /** Python truthiness of a captured group. */
  predicate Captured(g: Option<string>) {
    g.Some? && |g.value| > 0
  }

  /** `m.group(1) or m.group(2) or m.group(3)`. */
  function FirstGroup(m: AidMatch): (g: Option<string>)
    ensures Captured(m.g1) ==> g == m.g1
    ensures !Captured(m.g1) && Captured(m.g2) ==> g == m.g2
    ensures !Captured(m.g1) && !Captured(m.g2) ==> g == m.g3
  {
    if Captured(m.g1) then m.g1 else if Captured(m.g2) then m.g2 else m.g3
  }

  /** A match yields an aid when its first non-empty group is all digits. */
  predicate Usable(m: AidMatch) {
    var g := FirstGroup(m);
    Captured(g) && IsDigitString(g.value)
  }

  function AidOf(m: AidMatch): nat
    requires Usable(m)
  {
    DigitsValue(FirstGroup(m).value)
  }

  /** The loop over the matches: the first usable match gives the aid. */
  function SelectAid(matches: seq<AidMatch>): (r: Option<nat>)
    ensures r.None? <==> forall i :: 0 <= i < |matches| ==> !Usable(matches[i])
    ensures r.Some? ==> exists i :: (&& 0 <= i < |matches| && Usable(matches[i]) && r.value == AidOf(matches[i])
                                     && forall j :: 0 <= j < i ==> !Usable(matches[j]))
    decreases |matches|
  {
    if |matches| == 0 then None
    else if Usable(matches[0]) then Some(AidOf(matches[0]))
    else
      var r := SelectAid(matches[1..]);
      assert r.Some? ==> exists i :: (&& 0 <= i < |matches| && Usable(matches[i]) && r.value == AidOf(matches[i])
                                      && forall j :: 0 <= j < i ==> !Usable(matches[j])) by {
        if r.Some? {
          var i :| && 0 <= i < |matches| - 1 && Usable(matches[1..][i]) && r.value == AidOf(matches[1..][i])
                   && forall j :: 0 <= j < i ==> !Usable(matches[1..][j]);
          assert matches[i + 1] == matches[1..][i];
          forall j | 0 <= j < i + 1
            ensures !Usable(matches[j])
          {
            if j > 0 {
              assert matches[j] == matches[1..][j - 1];
            }
          }
        }
      }
      assert r.None? ==> forall i :: 0 <= i < |matches| ==> !Usable(matches[i]) by {
        if r.None? {
          forall i | 0 <= i < |matches|
            ensures !Usable(matches[i])
          {
            if i > 0 {
              assert matches[i] == matches[1..][i - 1];
            }
          }
        }
      }
      r
  }

  /** `meta['anidb_aid']` changes only when an aid was found. */
  function RecordAid(previous: Option<int>, found: Option<nat>): (r: Option<int>)
    ensures found.None? ==> r == previous
    ensures found.Some? ==> r == Some(found.value as int)
  {
    match found
    case None => previous
    case Some(a) => Some(a)
  }

  /** After the scan, `meta['anidb_aid']` holds the aid of the first usable
      match, and keeps its old value exactly when no match is usable and
      so no aid was found. */
  lemma AidRecordedFromFirstUsable(previous: Option<int>, matches: seq<AidMatch>)
    ensures (forall i :: 0 <= i < |matches| ==> !Usable(matches[i])) ==>
      RecordAid(previous, SelectAid(matches)) == previous
    ensures (exists i :: 0 <= i < |matches| && Usable(matches[i])) ==>
      exists i :: && 0 <= i < |matches| && Usable(matches[i])
                  && (forall j :: 0 <= j < i ==> !Usable(matches[j]))
                  && RecordAid(previous, SelectAid(matches)) == Some(AidOf(matches[i]) as int)
  {
    var found := SelectAid(matches);
    if found.Some? {
      var i :| && 0 <= i < |matches| && Usable(matches[i]) && found.value == AidOf(matches[i])
               && forall j :: 0 <= j < i ==> !Usable(matches[j]);
      assert RecordAid(previous, found) == Some(AidOf(matches[i]) as int);
    }
  }

  // ---------------------------------------------------------------------------
  // IMDb text and the id merge
  // ---------------------------------------------------------------------------

  /** `str(v).strip().lstrip('t')`, accepted only when what is left is a
      non-empty digit string. */
  function CleanImdb(v: Json): (r: Option<nat>)
    ensures r.Some? <==> IsDigitString(LStripChar(Strip(PyStr(v)), 't'))
    ensures r.Some? ==> r.value == DigitsValue(LStripChar(Strip(PyStr(v)), 't'))
  {
    var raw := LStripChar(Strip(PyStr(v)), 't');
    if IsDigitString(raw) then Some(DigitsValue(raw)) else None
  }

  /** `lstrip(c)` removes a run of `c` and stops at the first other
      character. */
  lemma {:induction false} LStripRun(run: string, rest: string, c: char)
    requires forall k :: 0 <= k < |run| ==> run[k] == c
    requires |rest| > 0 && rest[0] != c
    ensures LStripChar(run + rest, c) == rest
    decreases |run|
  {
    if |run| > 0 {
      assert (run + rest)[1..] == run[1..] + rest;
      LStripRun(run[1..], rest, c);
    } else {
      assert run + rest == rest;
    }
  }

  /** An IMDb title id `tt<digits>` yields its number. */
  lemma CleanImdbOfTitleId(tt: string, n: nat)
    requires tt == "tt"
    ensures CleanImdb(JStr(tt + NatToDigits(n))) == Some(n)
  {
    NatDigitsRoundTrip(n);
    var d := NatToDigits(n);
    var s := tt + d;
    assert s[|s| - 1] == d[|d| - 1];
    StripKeepsTrimmed(s);
    LStripRun(tt, d, 't');
    assert PyStr(JStr(s)) == s;
    assert LStripChar(Strip(s), 't') == d;
  }

  /** The ids.moe answer for the aid: its `imdb`, `themoviedb` and
      `myanimelist` values (`JNull` where a key is absent). */
  datatype Lookup = Lookup(imdb: Json, themoviedb: Json, myanimelist: Json)

  datatype Ids = Ids(imdb: Option<int>, tmdb: Option<int>, malId: Option<int>)

  /** Python truthiness of `meta.get('mal_id')`. */
  predicate HasMal(ids: Ids) {
    ids.malId.Some? && ids.malId.value != 0
  }

  /** The lookup runs when IMDb or TMDb is still missing, an aid was found
      and an API key is configured; an empty or failed answer is `None`. */
  predicate LookupRuns(ids: Ids, aid: Option<nat>, apiKey: bool, answer: Option<Lookup>) {
    (ids.imdb.None? || ids.tmdb.None?) && aid.Some? && apiKey && answer.Some?
  }

  /** The merge: each looked-up id fills its slot only when the slot is
      empty, and a value that does not convert leaves the slot as it was. */
  function MergeIds(ids: Ids, aid: Option<nat>, apiKey: bool, answer: Option<Lookup>): (r: Ids)
    ensures ids.imdb.Some? ==> r.imdb == ids.imdb
    ensures ids.tmdb.Some? ==> r.tmdb == ids.tmdb
    ensures HasMal(ids) ==> r.malId == ids.malId
    ensures !LookupRuns(ids, aid, apiKey, answer) ==> r == ids
    ensures r.imdb != ids.imdb ==>
      && LookupRuns(ids, aid, apiKey, answer) && Truthy(answer.value.imdb)
      && r.imdb == CleanImdb(answer.value.imdb) && r.imdb.Some?
    ensures r.tmdb != ids.tmdb ==>
      && LookupRuns(ids, aid, apiKey, answer) && Truthy(answer.value.themoviedb)
      && r.tmdb == PyInt(answer.value.themoviedb) && r.tmdb.Some?
    ensures r.malId != ids.malId ==>
      && LookupRuns(ids, aid, apiKey, answer) && Truthy(answer.value.myanimelist)
      && r.malId == PyInt(answer.value.myanimelist) && r.malId.Some?
    ensures (&& LookupRuns(ids, aid, apiKey, answer) && ids.imdb.None? && Truthy(answer.value.imdb)
             && CleanImdb(answer.value.imdb).Some?) ==> r.imdb == CleanImdb(answer.value.imdb)
    ensures (&& LookupRuns(ids, aid, apiKey, answer) && ids.tmdb.None? && Truthy(answer.value.themoviedb)
             && PyInt(answer.value.themoviedb).Some?) ==> r.tmdb == PyInt(answer.value.themoviedb)
    ensures (&& LookupRuns(ids, aid, apiKey, answer) && !HasMal(ids) && Truthy(answer.value.myanimelist)
             && PyInt(answer.value.myanimelist).Some?) ==> r.malId == PyInt(answer.value.myanimelist)
  {
    if !LookupRuns(ids, aid, apiKey, answer) then ids
    else
      var data := answer.value;
      var imdb :=
        if ids.imdb.None? && Truthy(data.imdb) then
          match CleanImdb(data.imdb) {
            case Some(n) => Some(n as int)
            case None => ids.imdb
          }
        else ids.imdb;
      var tmdb :=
        if ids.tmdb.None? && Truthy(data.themoviedb) then
          match PyInt(data.themoviedb) {
            case Some(n) => Some(n)
            case None => ids.tmdb
          }
        else ids.tmdb;
      var mal :=
        if Truthy(data.myanimelist) && !HasMal(ids) then
          match PyInt(data.myanimelist) {
            case Some(n) => Some(n)
            case None => ids.malId
          }
        else ids.malId;
      Ids(imdb, tmdb, mal)
  }

  /** An answer carrying the title id `tt<n>` fills a missing IMDb id with
      `n` whenever the lookup runs. */
  lemma MergeFillsTitleId(ids: Ids, aid: Option<nat>, apiKey: bool, tt: string, n: nat, tmdb: Json, mal: Json)
    requires tt == "tt"
    requires ids.imdb.None? && aid.Some? && apiKey
    ensures MergeIds(ids, aid, apiKey, Some(Lookup(JStr(tt + NatToDigits(n)), tmdb, mal))).imdb == Some(n)
  {
    CleanImdbOfTitleId(tt, n);
    assert Truthy(JStr(tt + NatToDigits(n)));
  }

  /** Merging the same answer twice changes nothing more: once filled, a
      slot is never rewritten. */
  lemma MergeIdempotent(ids: Ids, aid: Option<nat>, apiKey: bool, answer: Option<Lookup>)
    ensures var once := MergeIds(ids, aid, apiKey, answer);
      MergeIds(once, aid, apiKey, answer) == once
  {
  }
}

=== FILE: urls.dfy ===
/**
 The URL handling shared by the upload paths: the query component as
 `urllib.parse.urlparse` splits it, a regular-expression search of the
 shape `marker(\d+)` (used as `(id=)(\d+)` on a query and as
 `/subject/(\d+)` on a Douban link), and the "redirected to the details
 page" outcome of an upload.
 */
module Urls {
  import opened Text
  import opened Replace

  /** The position of the first `c` in `s`. */
  function IndexOf(s: string, c: char): (r: Option<nat>)
    ensures r.Some? ==> r.value < |s| && s[r.value] == c && forall k :: 0 <= k < r.value ==> s[k] != c
    ensures r.None? ==> forall k :: 0 <= k < |s| ==> s[k] != c
    decreases |s|
  {
    if |s| == 0 then None
    else if s[0] == c then Some(0)
    else match IndexOf(s[1..], c) {
      case None => None
      case Some(k) => Some(k + 1)
    }
  }

  /** `k` is where the query opens: the first `?` of `url`, with no `#`
      before it. */
  predicate QueryOpensAt(url: string, k: nat) {
    k < |url| && url[k] == '?' && forall j :: 0 <= j < k ==> url[j] != '?' && url[j] != '#'
  }

  /** `urlparse(url).query`: the fragment (from the first `#`) is cut off
      first, and the query is what follows the first `?` of the rest. */
  function Query(url: string): (q: string)
    ensures forall k :: 0 <= k < |q| ==> q[k] != '#'
    ensures |q| <= |url|
    ensures forall k: nat :: QueryOpensAt(url, k) ==>
      && k + 1 + |q| <= |url|
      && url[k + 1..k + 1 + |q|] == q
      && (k + 1 + |q| == |url| || url[k + 1 + |q|] == '#')
    ensures (forall k: nat :: !QueryOpensAt(url, k)) ==> q == ""
  {
    var cut := match IndexOf(url, '#') {
      case Some(k) => k
      case None => |url|
    };
    var beforeFragment := url[..cut];
    match IndexOf(beforeFragment, '?') {
      case Some(k) =>
        assert QueryOpensAt(url, k);
        beforeFragment[k + 1..]
      case None =>
        assert forall k: nat :: QueryOpensAt(url, k) ==> k < cut && beforeFragment[k] == '?';
        ""
    }
  }

  /** The query of `base?q` is `q` when `base` holds neither `?` nor `#`. */
  lemma QueryOfComposed(base: string, q: string)
    requires forall k :: 0 <= k < |base| ==> base[k] != '?' && base[k] != '#'
    requires forall k :: 0 <= k < |q| ==> q[k] != '#'
    ensures Query(base + "?" + q) == q
  {
    var url := base + "?" + q;
    assert IndexOf(url, '#').None?;
    var i := IndexOf(url, '?');
    assert url[|base|] == '?';
    assert i.Some? && i.value == |base|;
    assert url[|base| + 1..] == q;
  }

  // ---------------------------------------------------------------------------
  // re.search(marker + r"(\d+)", s)
  // ---------------------------------------------------------------------------

  /** The pattern matches at `i`: `marker` starts there and a digit follows it.
      `\d` is taken as an ASCII digit; `re` also accepts other Unicode
      decimal digits, which this model does not. */
  predicate MatchAt(s: string, marker: string, i: nat) {
    i + |marker| < |s| && StartsWith(s[i..], marker) && IsDigit(s[i + |marker|])
  }

  /** The leftmost match at or after `from`, as the regex engine scans. */
  function FirstMatchFrom(s: string, marker: string, from: nat): (r: Option<nat>)
    ensures r.Some? ==>
      && from <= r.value
      && MatchAt(s, marker, r.value)
      && (forall j :: from <= j < r.value ==> !MatchAt(s, marker, j))
    ensures r.None? ==> forall j :: from <= j ==> !MatchAt(s, marker, j)
    decreases |s| - from
  {
    if from >= |s| then None
    else if MatchAt(s, marker, from) then Some(from)
    else FirstMatchFrom(s, marker, from + 1)
  }

  /** The longest run of digits `s` starts with: what a greedy `\d+` takes. */
  function LeadingDigits(s: string): (r: string)
    ensures StartsWith(s, r) && AllDigits(r)
    ensures |r| < |s| ==> !IsDigit(s[|r|])
    decreases |s|
  {
    if |s| > 0 && IsDigit(s[0]) then [s[0]] + LeadingDigits(s[1..]) else []
  }

  lemma {:induction false} LeadingDigitsOf(d: string, rest: string)
    requires AllDigits(d)
    requires |rest| == 0 || !IsDigit(rest[0])
    ensures LeadingDigits(d + rest) == d
    decreases |d|
  {
    if |d| > 0 {
      assert (d + rest)[1..] == d[1..] + rest;
      LeadingDigitsOf(d[1..], rest);
      assert d == [d[0]] + d[1..];
    } else {
      assert d + rest == rest;
    }
  }

  /** `d` is a whole digit run starting at `k`: the next character, if
      any, is not a digit. */
  predicate RunAt(s: string, k: nat, d: string) {
    && IsDigitString(d)
    && k + |d| <= |s| && s[k..k + |d|] == d
    && (k + |d| == |s| || !IsDigit(s[k + |d|]))
  }

  /** `d` is what `re.search(marker + r"(\d+)", s)` captures: the whole
      digit run after the leftmost match. */
  predicate FirstRun(s: string, marker: string, d: string) {
    match FirstMatchFrom(s, marker, 0)
    case None => false
    case Some(i) => RunAt(s, i + |marker|, d)
  }

  /** `re.search(marker + r"(\d+)", s).group(2)`, or `None` when there is no match. */
  function SearchDigits(s: string, marker: string): (r: Option<string>)
    ensures r.Some? ==> IsDigitString(r.value) && Contains(s, marker + r.value)
    ensures r.Some? ==> FirstRun(s, marker, r.value)
    ensures r.None? <==> forall j :: 0 <= j < |s| ==> !MatchAt(s, marker, j)
  {
    match FirstMatchFrom(s, marker, 0)
    case None => None
    case Some(i) =>
      var d := LeadingDigits(s[i + |marker|..]);
      assert s[i..][..|marker| + |d|] == marker + d by {
        assert s[i..][..|marker|] == marker;
        assert s[i + |marker|..][..|d|] == d;
      }
      ContainsAt(s, marker + d, i);
      assert s[i + |marker|..i + |marker| + |d|] == d by {
        assert s[i + |marker|..][..|d|] == d;
      }
      assert RunAt(s, i + |marker|, d);
      Some(d)
  }

  /** The search answers `d` exactly when `d` is the first run. */
  lemma SearchDigitsIsFirstRun(s: string, marker: string, d: string)
    ensures SearchDigits(s, marker) == Some(d) <==> FirstRun(s, marker, d)
  {
    if FirstRun(s, marker, d) {
      FirstRunUnique(s, marker, SearchDigits(s, marker).value, d);
    }
  }

  lemma RunDigit(s: string, k: nat, d: string, n: nat)
    requires RunAt(s, k, d)
    ensures n < |d| ==> IsDigit(s[k + n])
  {
    if n < |d| {
      assert s[k + n] == d[n];
    }
  }

  /** Two whole digit runs from the same place are the same run. */
  lemma RunAtUnique(s: string, k: nat, d1: string, d2: string)
    requires RunAt(s, k, d1) && RunAt(s, k, d2)
    ensures d1 == d2
  {
    RunDigit(s, k, d2, |d1|);
    RunDigit(s, k, d1, |d2|);
  }

  /** The captured run is determined by `s` and `marker`: at most one `d`
      is the first run. */
  lemma FirstRunUnique(s: string, marker: string, d1: string, d2: string)
    requires FirstRun(s, marker, d1) && FirstRun(s, marker, d2)
    ensures d1 == d2
  {
    RunAtUnique(s, FirstMatchFrom(s, marker, 0).value + |marker|, d1, d2);
  }

  /** A marker at the very start followed by a digit run is the match, and
      the whole run is the captured group. */
  lemma SearchDigitsAtStart(marker: string, d: string, rest: string)
    requires IsDigitString(d)
    requires |rest| == 0 || !IsDigit(rest[0])
    ensures SearchDigits(marker + d + rest, marker) == Some(d)
  {
    var s := marker + d + rest;
    assert s[0..] == s;
    assert s[..|marker|] == marker;
    assert MatchAt(s, marker, 0);
    assert s[|marker|..] == d + rest;
    LeadingDigitsOf(d, rest);
  }

  /** The search reads the digit run after the leftmost match. */
  lemma SearchDigitsAt(s: string, marker: string, i: nat, d: string, rest: string)
    requires FirstMatchFrom(s, marker, 0) == Some(i)
    requires i + |marker| <= |s| && s[i + |marker|..] == d + rest
    requires IsDigitString(d)
    requires |rest| == 0 || !IsDigit(rest[0])
    ensures SearchDigits(s, marker) == Some(d)
  {
    LeadingDigitsOf(d, rest);
    assert LeadingDigits(s[i + |marker|..]) == d;
  }

  /** The first match is at `i` when one is there and none starts
      earlier. */
  lemma FirstMatchIs(s: string, marker: string, i: nat)
    requires MatchAt(s, marker, i)
    requires forall j :: 0 <= j < i ==> !MatchAt(s, marker, j)
    ensures FirstMatchFrom(s, marker, 0) == Some(i)
  {
    var g := FirstMatchFrom(s, marker, 0);
    assert g.Some? && g.value <= i;
  }

  /** A marker and a digit run after a stretch where no match starts: the
      run is what the search captures. */
  lemma SearchDigitsAfter(head: string, marker: string, d: string, rest: string)
    requires forall j :: 0 <= j < |head| ==> !MatchAt(head + (marker + d + rest), marker, j)
    requires IsDigitString(d)
    requires |rest| == 0 || !IsDigit(rest[0])
    ensures SearchDigits(head + (marker + d + rest), marker) == Some(d)
  {
    var tail := marker + d + rest;
    var s := head + tail;
    var i := |head|;
    assert s[i..] == tail;
    assert tail[..|marker|] == marker;
    assert s[i + |marker|] == d[0];
    assert MatchAt(s, marker, i);
    FirstMatchIs(s, marker, i);
    assert s[i + |marker|..] == d + rest;
    SearchDigitsAt(s, marker, i, d, rest);
  }

  /** No `/`-led marker whose second character is not `/` can start inside
      `scheme://host` when neither part holds a `/` and the host does not
      open with the marker's second character. */
  lemma NoMatchInPrefix(scheme: string, host: string, marker: string, tail: string)
    requires |marker| >= 2 && marker[0] == '/' && marker[1] != '/'
    requires forall k :: 0 <= k < |scheme| ==> scheme[k] != '/'
    requires forall k :: 0 <= k < |host| ==> host[k] != '/'
    requires |host| > 0 && host[0] != marker[1]
    ensures forall j :: 0 <= j < |scheme| + 2 + |host| ==> !MatchAt(scheme + "//" + host + tail, marker, j)
  {
    var s := scheme + "//" + host + tail;
    forall j | 0 <= j < |scheme| + 2 + |host|
      ensures !MatchAt(s, marker, j)
    {
      assert j + 1 < |s| ==> s[j] != '/' || s[j + 1] != marker[1];
    }
  }

  // ---------------------------------------------------------------------------
  // The details-page redirect after an upload
  // ---------------------------------------------------------------------------

  /** What a POST that followed its redirects to `url` means: the upload was
      accepted (status message and torrent id), the details page was reached
      but carried no id (`UploadException` in the source), or the site
      answered somewhere else (the failure exception). */
  datatype Redirect =
    | Accepted(message: string, torrentId: string)
    | MissingId
    | Rejected

  const UploadedFlag := "&uploaded=1"

  function RedirectOutcome(detailsPrefix: string, url: string): (r: Redirect)
    ensures !StartsWith(url, detailsPrefix) <==> r == Rejected
    ensures r.Accepted? ==>
      && IsDigitString(r.torrentId)
      && Contains(Query(url), "id=" + r.torrentId)
      && FirstRun(Query(url), "id=", r.torrentId)
      && r.message == ReplaceAll(url, UploadedFlag, "")
    ensures r == MissingId <==>
      StartsWith(url, detailsPrefix) && forall j :: 0 <= j < |Query(url)| ==> !MatchAt(Query(url), "id=", j)
  {
    if !StartsWith(url, detailsPrefix) then Rejected
    else match SearchDigits(Query(url), "id=") {
      case None => MissingId
      case Some(id) => Accepted(ReplaceAll(url, UploadedFlag, ""), id)
    }
  }

  /** The status message of an accepted upload is the redirect URL cut at
      every `&uploaded=1` and glued back without it; when the details
      prefix holds no `&`, the message still starts with that prefix. */
  lemma RedirectMessage(detailsPrefix: string, url: string)
    ensures var r := RedirectOutcome(detailsPrefix, url);
      r.Accepted? ==>
        && r.message == Join("", Split(url, UploadedFlag))
        && (forall k :: 0 <= k < |Split(url, UploadedFlag)| ==> !Contains(Split(url, UploadedFlag)[k], UploadedFlag))
        && ((forall k :: 0 <= k < |detailsPrefix| ==> detailsPrefix[k] != '&') ==> StartsWith(r.message, detailsPrefix))
  {
    var flag := UploadedFlag;
    ReplaceIsJoinSplit(url, flag, "");
    SplitPiecesAreFree(url, flag);
    if StartsWith(url, detailsPrefix) && forall k :: 0 <= k < |detailsPrefix| ==> detailsPrefix[k] != '&' {
      var rest := url[|detailsPrefix|..];
      assert url == detailsPrefix + rest;
      ReplaceSkip(detailsPrefix, rest, flag, "");
      var m := ReplaceAll(url, flag, "");
      assert m[..|detailsPrefix|] == detailsPrefix;
    }
  }

  lemma RedirectQuery(base: string, d: string)
    requires forall k :: 0 <= k < |base| ==> base[k] != '?' && base[k] != '#'
    requires IsDigitString(d)
    ensures SearchDigits(Query(base + "?id=" + d + UploadedFlag), "id=") == Some(d)
  {
    var q := "id=" + d + UploadedFlag;
    assert base + "?id=" + d + UploadedFlag == base + "?" + q;
    QueryOfComposed(base, q);
    SearchDigitsAtStart("id=", d, UploadedFlag);
  }

  lemma ReplaceSelf(pat: string)
    requires |pat| > 0
    ensures ReplaceAll(pat, pat, "") == ""
  {
    assert StartsWith(pat, pat);
    assert pat[|pat|..] == "";
  }

  lemma DropUploadedFlag(a: string)
    requires forall k :: 0 <= k < |a| ==> a[k] != '&'
    ensures ReplaceAll(a + UploadedFlag, UploadedFlag, "") == a
  {
    var flag := UploadedFlag;
    assert flag[0] == '&';
    ReplaceSkip(a, flag, flag, "");
    assert ReplaceAll(a + flag, flag, "") == a + ReplaceAll(flag, flag, "");
    ReplaceSelf(flag);
    assert a + "" == a;
  }

  /** `base?id=<digits>` holds no `&` when `base` holds none. The separator
      is a parameter pinned by `requires` so that callers' proofs do not
      unfold the indexing over the literal. */
  lemma NoAmpersand(base: string, sep: string, d: string)
    requires sep == "?id="
    requires forall k :: 0 <= k < |base| ==> base[k] != '&'
    requires AllDigits(d)
    ensures forall k :: 0 <= k < |base + sep + d| ==> (base + sep + d)[k] != '&'
  {
    var a := base + sep + d;
    forall k | 0 <= k < |a|
      ensures a[k] != '&'
    {
      if k < |base| {
        assert a[k] == base[k];
      } else if k >= |base| + |sep| {
        assert a[k] == d[k - |base| - |sep|];
      } else {
        assert a[k] == sep[k - |base|];
      }
    }
  }

  /** The redirect the site sends after an accepted upload,
      `<base>?id=<digits>&uploaded=1`, yields exactly those digits and the
      URL without the `&uploaded=1` flag. */
  lemma RedirectRoundTrip(base: string, d: string)
    requires forall k :: 0 <= k < |base| ==> base[k] != '?' && base[k] != '#' && base[k] != '&'
    requires IsDigitString(d)
    ensures var prefix := base + "?id=";
      RedirectOutcome(prefix, prefix + d + UploadedFlag) == Accepted(prefix + d, d)
  {
    var prefix := base + "?id=";
    var url := prefix + d + UploadedFlag;
    assert url[..|prefix|] == prefix;
    assert url == base + "?id=" + d + UploadedFlag;
    RedirectQuery(base, d);
    var a := prefix + d;
    NoAmpersand(base, "?id=", d);
    DropUploadedFlag(a);
    assert url == a + UploadedFlag;
  }
}
